=== FILE: README.md ===
# react-endless-scroller, the loading core in Dafny

react-endless-scroller is an infinite-scroll component. It holds a window of
*tuples* (objects with a unique `key`) fetched page by page from a
user-supplied `api`. It records where the window sits in the virtual dataset
as `boundaries {start, end}` and keeps two exhaustion flags,
`beginningOfResults` and `endOfResults`. This project models the handlers that
decide and perform those loads:

- **scrollHandler** decides, from the scroll position, the flags and the
  `loadThreshold` prop, whether to load forward, backward or not at all.
- **loadPacketHandler** does the following, in order:
  - checks the size props and applies their defaults (`packetSize`,
    `loadSize`, `inRushLoad`, `inRushLoadSize`, `bypassLoadSize`);
  - computes the range to request and calls the api;
  - checks the response (`checkApiReturn`);
  - merges the new tuples without duplicating keys and trims to `loadSize`;
  - recomputes the boundaries and the flags.
- **apiValidator** and **tuplesValidator** are the stand-alone copies of the
  response checks.
- **insertHandler** splices tuples in at an index. **removeHandler** filters
  tuples out by key and moves the end boundary back.

Module layout:

- `Wrappers`: `Option` and `Result`.
- `JsonValues`: the untrusted values an api returns. A missing property reads
  as `Null`, as `== null` treats both.
- `Settle`: a promise that settles once. Its `Deferred` class shows that a
  validator which rejects without returning reports its first rejection.
- `ApiErrors`: the rejections the checks can raise.
- `Window`: boundaries, flags, the key filter and JavaScript's `slice`.
- `TuplesValidator`, `ApiValidator`, `ScrollHandler`, `InsertHandler`,
  `RemoveHandler` and `LoadPacketHandler`: one module per source file.
- `Simulation`: the fake api of the test suite, and the scroll sessions the
  tests run against it.

The api is a parameter, a function from the request to what its promise
settles with. Each handler is a function, which serves as its specification.
Where the source works step by step, a method mirrors it and is proved equal
to that function:

- `CheckResponse` runs the reject cascade on a `Deferred`;
- `ResolveSizes` runs the size checks on a `Deferred`, rejecting without
  returning;
- `UpdateBoundaries` runs the boundary update branch by branch;
- `MergeResponse` runs the key filter, the merge, the trim and the flag
  updates, and fails with the TypeError the filter throws on a null tuple;
- `LoadPacketHandlerRun` runs the whole load on a `Deferred`: it calls the api
  even after a size check has rejected, and the first settlement wins. It is
  as written except that its response check rejects null tuples;
- `FeedState.Insert` mutates the held array, or fails as the source throws.

The load is a function of a `BoundaryRule`:

- `AsWritten` is the boundary update of the source. The methods above are
  proved equal to `LoadPacket(AsWritten, ...)`.
- `Corrected` is the rule under which the boundaries always describe the held
  tuples (see Findings).

The two rules reach the same verdict and hold the same tuples and the same
endOfResults flag (`RulesDifferOnlyInBoundaries`). On windows where more than
one packet is kept, and on untrimmed first loads, they are equal
(`RulesAgree`). The test sessions are stated on the as-written load.

The main theorem is `Simulation.LoadKeepsGapless`. Suppose a window holds
exactly the dataset between its boundaries, and the api serves stretches of
that dataset. Then a load in either direction leaves a window with the same
property and with no repeated key. It is stated for the corrected rule. The
as-written rule breaks it on the two windows under Findings.

## Model

| member | source | states |
|---|---|---|
| JsonValues.Get | src/components/handlers/loadPacketHandler.ts:15-20 | reading a property gives its value when the object has it, and null otherwise (for missing properties and non-objects alike) |
| JsonValues.Set | src/components/handlers/loadPacketHandler.ts:66 | assigning a property changes that property and leaves every other property as it was |
| Settle.Deferred.constructor | src/components/handlers/loadPacketHandler.ts:8-9 | a new promise is pending |
| Settle.Deferred.Reject | src/components/handlers/loadPacketHandler.ts:11 | reject settles a pending promise with the error; an already settled promise is unchanged |
| Settle.Deferred.Resolve | src/components/handlers/loadPacketHandler.ts:70 | resolve settles a pending promise with the value; an already settled promise is unchanged |
| Window.Unheld | src/components/handlers/loadPacketHandler.ts:160 | the dedupe filter never adds tuples |
| Window.UnheldMembers | src/components/handlers/loadPacketHandler.ts:160 | a tuple survives the filter if and only if it was incoming and its key is not held |
| Window.UnheldConcat | src/components/handlers/insertHandler.ts:6 | the filter keeps the incoming order: filtering a concatenation is concatenating the filtered parts |
| Window.UnheldAllNew | src/components/handlers/loadPacketHandler.ts:160 | incoming tuples sharing no key with the held ones all survive, in order |
| Window.UnheldAllHeld | src/components/handlers/loadPacketHandler.ts:156-160 | re-fetching only held keys lets nothing through |
| Window.UnheldUnique | src/components/handlers/loadPacketHandler.ts:156-160 | the survivors have unique keys when the incoming tuples do |
| Window.UnheldDisjoint | src/components/handlers/loadPacketHandler.ts:160 | no survivor has the key of a held tuple |
| Window.SliceIndex | src/components/handlers/loadPacketHandler.ts:175-176 | slice's reading of an index: indices in [0, len] are kept, negative ones count back from the end, an index past the end reads as len and one before the start (len + i < 0) as 0 |
| Window.SliceLast | src/components/handlers/loadPacketHandler.ts:175 | `slice(-n)` keeps the last n elements, or all of them when there are fewer |
| Window.SliceFirst | src/components/handlers/loadPacketHandler.ts:176 | `slice(0, n)` keeps the first n elements, or all of them when there are fewer |
| TuplesValidator.FirstTupleError | src/components/validators/tuplesValidator.ts:8-16 | no error if and only if every tuple is an Object with a key; otherwise the error of a failing tuple all of whose predecessors pass |
| TuplesValidator.FirstTupleErrorAt | src/components/validators/tuplesValidator.ts:8-16 | the first failing tuple decides the error, whatever follows it |
| TuplesValidator.ScanTuples | src/components/validators/tuplesValidator.ts:3-20 | the loop with break and a final resolve ignored once rejected: success if and only if every tuple passes; otherwise the first failing tuple's error |
| TuplesValidator.TuplesValidator | src/components/validators/tuplesValidator.ts:3-20 | resolves if and only if every tuple is a non-null Object with a key; otherwise rejects with the first failing tuple's error |
| ApiValidator.Validate | src/components/validators/apiValidator.ts:8-73 | accepts if and only if the response is an Object with numeric boundaries (start <= end for apiValidator), a boolean endOfResults and an optional Array of good tuples; on success returns the response with queryResults defaulted to [], well formed for the merge, every other field untouched; on failure the error is the first failing check in source order: null, then non-Object, then the boundaries checks, the flags checks only when the boundaries pass, and the queryResults checks only when both pass |
| ApiValidator.WrongResponsesRejected | src/components/tests/loadPacketHandler/handlers.utils.ts:32-57 | the test table's empty, non-Object, empty-Object and malformed-boundaries responses are rejected with noResults, notValidResult, noBoundaries and notValidBoundaries, with or without null tuples let through |
| ApiValidator.WrongBoundariesRejected | src/components/tests/loadPacketHandler/handlers.utils.ts:58-87 | the table's malformed start and end boundaries are rejected with noStartBoundary, notValidStartBoundary, noEndBoundary and notValidEndBoundary |
| ApiValidator.WrongFlagsRejected | src/components/tests/loadPacketHandler/handlers.utils.ts:88-117 | the table's missing or malformed flags are rejected with noFlags, notValidFlags, noEndOfResultsFlag and notValidEndOfResultsFlag |
| ApiValidator.WrongQueryResultsRejected | src/components/tests/loadPacketHandler/handlers.utils.ts:118-132 | the table's non-Array queryResults, non-Object tuple and keyless tuple are rejected with notValidQueryResults, notValidTuple and noTupleKey |
| ApiValidator.RejectBadBoundaries | src/components/validators/apiValidator.ts:15-43 | the boundaries checks leave a pending promise rejected with their first failure, and a settled one unchanged |
| ApiValidator.RejectBadFlags | src/components/validators/apiValidator.ts:45-55 | the same for the flags checks |
| ApiValidator.CheckResponse | src/components/validators/apiValidator.ts:8-73 | the cascade of rejects without return on a settle-once promise: first rejection wins, and the result equals `Validate` (for both apiValidator and checkApiReturn settings) |
| ApiValidator.CheckApiReturnAcceptsNullTuple | src/components/handlers/loadPacketHandler.ts:52-60 | the inline check as written accepts `[null, {key: 1}]`, which tuplesValidator rejects with notValidTuple(null) |
| ApiValidator.InlineCheckIgnoresBoundaryOrder | src/components/handlers/loadPacketHandler.ts:19-31 | the inline check accepts start 5 > end 2, which apiValidator rejects |
| ScrollHandler.EffectiveThreshold | src/components/handlers/scrollHandler.ts:10 | each threshold side is the prop's value when given and 1 otherwise |
| ScrollHandler.ScrollHandler | src/components/handlers/scrollHandler.ts:4-22 | forward if and only if near the bottom and not at the end; backward if and only if not forward, near the top and not at the beginning; null otherwise |
| ScrollHandler.BothEndsReachedNoLoad | src/components/handlers/scrollHandler.ts:12-20 | with both flags set no position asks for a load |
| ScrollHandler.ForwardBeforeBackward | src/components/handlers/scrollHandler.ts:12-18 | a view near both edges loads forward first |
| ScrollHandler.ScrollHandlerCases | src/components/tests/scrollHandler/scrollHandler.test.tsx:8-187 | the decisions the scroll test suite expects |
| InsertHandler.Spliced | src/components/handlers/insertHandler.ts:6-7 | whatever the index, the held array grows by exactly the number of tuples with new keys |
| InsertHandler.FeedState.Insert | src/components/handlers/insertHandler.ts:3-10 | when the key filter reads `key` on a null tuple, the handler fails with that TypeError and the held array is unchanged; otherwise the held array is replaced in place by the splice of the new-key tuples at index, read as splice reads it (negative from the end, clamped), and is returned as well; unique keys are preserved |
| Window.FilterThrowsCases | src/components/handlers/insertHandler.ts:6 | the filter never throws on an empty window; on a non-empty one it throws for a null incoming tuple, and for any incoming tuple when the first held tuple is null |
| Window.ObjectsNeverThrow | src/components/handlers/insertHandler.ts:6 | among tuples none of which is null, the filter's find never throws |
| Window.ObjectsFilterNeverThrows | src/components/handlers/loadPacketHandler.ts:160 | when neither the incoming nor the held tuples contain null, the dedupe filter never throws |
| InsertHandler.InsertLayout | src/components/handlers/insertHandler.ts:7 | the held tuples before and after index keep their order around the inserted block, which sits at index |
| InsertHandler.InsertKeepsKeysUnique | src/components/handlers/insertHandler.ts:6-7 | splicing new-key tuples into a window with unique keys keeps keys unique |
| InsertHandler.InsertHeldKeysIsNoop | src/components/handlers/insertHandler.ts:6 | inserting only held keys leaves the array as it was |
| InsertHandler.InsertedAtIndex | src/components/handlers/insertHandler.ts:7 | a single tuple with a new key ends up exactly at index |
| InsertHandler.IncomingDuplicatesKept | src/components/handlers/insertHandler.ts:6 | only held keys are filtered: two incoming tuples sharing a new key are both inserted |
| RemoveHandler.FilteredIds | src/components/handlers/removeHandler.ts:5 | an id is kept if and only if some held tuple has it as key; each kept id occurs as often as in `ids`, and the others not at all |
| RemoveHandler.FilteredIdsConcat | src/components/handlers/removeHandler.ts:5 | the kept ids are in the order of `ids`: filtering a concatenation is concatenating the filtered parts |
| RemoveHandler.Without | src/components/handlers/removeHandler.ts:8 | a tuple stays if and only if its key is not one of the ids |
| RemoveHandler.WithoutConcat | src/components/handlers/removeHandler.ts:8 | the kept tuples are in their held order: filtering a concatenation is concatenating the filtered parts |
| RemoveHandler.WithoutAround | src/components/handlers/removeHandler.ts:8 | each tuple is dropped exactly when its key is named, in place between its neighbours |
| RemoveHandler.RemoveHandler | src/components/handlers/removeHandler.ts:3-14 | fails with the TypeError of reading `key` if and only if a held tuple is null; otherwise start is kept, end moves back by the number of matching ids, and the tuples are the held ones filtered by all the ids, in order: a tuple stays if and only if its key is not among the ids |
| RemoveHandler.NamedByFilteredIds | src/components/handlers/removeHandler.ts:5-8 | filtering by the matched ids removes the same tuples, in the same order, as filtering by all the ids |
| RemoveHandler.RemoveAbsentIsNoop | src/components/handlers/removeHandler.ts:5-12 | ids matching no held key leave tuples and boundaries unchanged (when no held tuple is null) |
| RemoveHandler.DuplicateIdsOverShrinkEnd | src/components/handlers/removeHandler.ts:5-11 | a repeated id moves end back twice while its tuple goes once |
| RemoveHandler.RemoveTuples | src/components/handlers/removeHandler.ts:7-13 | the corrected removal fails like the source on a held null tuple; otherwise it keeps start, keeps the held tuples whose key is not named, in order, and keeps the difference between the boundaries' extent and the tuple count |
| RemoveHandler.RemovedKeysAbsent | src/components/handlers/removeHandler.ts:8 | after a successful removal no held tuple has a removed key |
| LoadPacketHandler.CeilThreeHalves | src/components/handlers/loadPacketHandler.ts:109 | `Math.ceil(1.5 * packetSize)`: the least c with 2c >= 3 * packetSize |
| LoadPacketHandler.Defaulted | src/components/handlers/loadPacketHandler.ts:92-114 | packetSize 30, loadSize 4 * packetSize, inRushLoad true and inRushLoadSize floor(loadSize / 2) when absent; given props are kept |
| LoadPacketHandler.ResolveConfig | src/components/handlers/loadPacketHandler.ts:98-118 | succeeds if and only if every size check passes, with the defaulted props |
| LoadPacketHandler.ResolveConfigFirstFailure | src/components/handlers/loadPacketHandler.ts:98-118 | each error names the failing value, and every check before it passed |
| LoadPacketHandler.BuildRequest | src/components/handlers/loadPacketHandler.ts:138-144 | the request holds the query parameters plus start and end, start and end winning over same-named parameters |
| LoadPacketHandler.PlanRequest | src/components/handlers/loadPacketHandler.ts:123-144 | fails if and only if a size check fails; otherwise asks for one adaptive packet starting at the held end (forward) or ending at the held start (backward) |
| LoadPacketHandler.InvalidConfigStillRequests | src/components/handlers/loadPacketHandler.ts:98-144 | with packetSize 0 the load is rejected, yet as written the api is still called for {start: 0, end: 0} |
| LoadPacketHandler.Merge | src/components/handlers/loadPacketHandler.ts:160-167 | the held tuples stay as a block, first going forward and last going backward, and the rest of the merge is exactly the incoming tuples whose key is not held, in their order |
| LoadPacketHandler.MergeKeepsKeysUnique | src/components/handlers/loadPacketHandler.ts:155-167 | merging keeps keys unique |
| LoadPacketHandler.Trim | src/components/handlers/loadPacketHandler.ts:169-177 | unless bypassed, at most loadSize tuples are kept, all of them when there are fewer; the newest end is kept, i.e. the side just fetched |
| LoadPacketHandler.TrimIsSlice | src/components/handlers/loadPacketHandler.ts:173-177 | the trim is `slice(-loadSize)` going forward and `slice(0, loadSize)` going backward |
| LoadPacketHandler.TrimDropsOverlap | src/components/handlers/loadPacketHandler.ts:169-177 | the trim drops exactly overlapSize tuples |
| LoadPacketHandler.NewBoundariesAsWritten | src/components/handlers/loadPacketHandler.ts:190-210 | the source's rule: the fetched side comes from the api; when no more than one packet is kept, both sides are the api's; otherwise the other side is the previous one, moved by the trimmed overlap unless bypassed |
| LoadPacketHandler.NewBoundaries | src/components/handlers/loadPacketHandler.ts:179-212 | the corrected rule: the fetched side comes from the api; the other side continues from the held window (from the api's range on a first load) and is always moved by the trimmed overlap unless bypassed; an untrimmed first load takes the api's range |
| LoadPacketHandler.BoundariesAgree | src/components/handlers/loadPacketHandler.ts:190-210 | the corrected and as-written rules agree when tuples were held and more than one packet is kept, and on untrimmed first loads |
| LoadPacketHandler.Apply | src/components/handlers/loadPacketHandler.ts:152-249 | after a merge: the tuples are the merge trimmed to loadSize; the boundaries are those of the chosen rule; beginningOfResults if and only if start is 0; endOfResults is the api's going forward; going backward it says whether the request reached past 0 when nothing is held, is cleared when the trim dropped tuples, and is kept otherwise; the response is recorded |
| LoadPacketHandler.ApplyKeepsKeysUnique | src/components/handlers/loadPacketHandler.ts:155-177 | a load never leaves two held tuples with the same key when neither the window nor the page has one |
| LoadPacketHandler.LoadPacket | src/components/handlers/loadPacketHandler.ts:81-254 | fails with a config error if and only if a size check fails; with valid sizes, an api rejection fails with its reason, a response the check rejects fails with the check's error, an accepted response on which the key filter reads `key` of a null tuple fails with that TypeError, and any other accepted response succeeds with the merge of the checked response |
| LoadPacketHandler.RulesDifferOnlyInBoundaries | src/components/handlers/loadPacketHandler.ts:190-236 | the two rules give the same verdict, the same tuples and the same endOfResults; they differ only in the boundaries and the beginningOfResults flag read from them |
| LoadPacketHandler.RulesAgree | src/components/handlers/loadPacketHandler.ts:190-210 | when tuples were held and more than one packet is kept, or on an untrimmed first load, the source's load equals the corrected one |
| LoadPacketHandler.AcceptedTuplesAreObjects | src/components/handlers/loadPacketHandler.ts:45-61 | every tuple of a page the load's check accepts is an Object with a key |
| LoadPacketHandler.HeldNullFailsLoad | src/components/handlers/loadPacketHandler.ts:160 | a window whose first held tuple is null fails every load with a non-empty accepted page with the TypeError |
| LoadPacketHandler.ObjectsLoadWithoutTypeError | src/components/handlers/loadPacketHandler.ts:160 | a window holding no null tuple never fails a load with the TypeError |
| LoadPacketHandler.ResolveSizes | src/components/handlers/loadPacketHandler.ts:84-118 | the checks rejecting without return on a settle-once promise give `ResolveConfig`, and the defaulted sizes are computed whatever the verdict |
| LoadPacketHandler.UpdateBoundaries | src/components/handlers/loadPacketHandler.ts:190-212 | the branch-by-branch boundary update gives `NewBoundariesAsWritten` |
| LoadPacketHandler.MergeResponse | src/components/handlers/loadPacketHandler.ts:152-249 | fails with the TypeError when the key filter at :160 reads `key` of a null tuple; otherwise the local-by-local merge, trim, boundary and flag updates give `Apply` with the source's rule |
| LoadPacketHandler.LoadPacketHandlerRun | src/components/handlers/loadPacketHandler.ts:81-254 | the handler as written, except that null tuples are rejected (checks rejecting without return, the api called whatever they found, response check, merge whose TypeError rejects through the catch at :252), sends the request built from the defaulted sizes and settles with `LoadPacket` on the source's rule |
| Simulation.DatasetIsValid | src/components/tests/loadPacketHandler/simulators.ts:4-10 | the 1000-tuple test dataset consists of Objects with keys, and no key repeats |
| Simulation.PageContents | src/components/tests/loadPacketHandler/simulators.ts:16-27 | the fake api's page for [lo, hi) holds the dataset from lo to hi or to its end, with those boundaries and endOfResults when the end is reached |
| Simulation.PageAccepted | src/components/tests/loadPacketHandler/simulators.ts:16-27 | every page passes checkApiReturn unchanged |
| Simulation.SimulatorServesStretches | src/components/tests/loadPacketHandler/simulators.ts:12-45 | in mode 0 the fake api serves stretches of any valid dataset |
| Simulation.LoadOfAcceptedResponse | src/components/handlers/loadPacketHandler.ts:145-160 | a corrected load on a window without null tuples, whose api answer passes the check unchanged, is that answer merged |
| Simulation.ForwardRange | src/components/handlers/loadPacketHandler.ts:127-144 | a forward request asks for [end, end + adaptivePacketSize) |
| Simulation.BackwardRange | src/components/handlers/loadPacketHandler.ts:127-144 | a backward request asks for [start - adaptivePacketSize, start) |
| Simulation.MergeStretches | src/components/handlers/loadPacketHandler.ts:160-167 | merging a neighbouring stretch of a unique-key dataset joins the two stretches in either direction |
| Simulation.TrimForwardStretch | src/components/handlers/loadPacketHandler.ts:173-175 | trimming a stretch going forward keeps its last KeptCount tuples |
| Simulation.TrimBackwardStretch | src/components/handlers/loadPacketHandler.ts:173-176 | trimming a stretch going backward keeps its first KeptCount tuples |
| Simulation.ApplyForwardStretch | src/components/handlers/loadPacketHandler.ts:152-249 | merging the stretch right after a gapless window gives the window [lo, hi) with flags (lo == 0, the api's endOfResults) |
| Simulation.ApplyBackwardFlags | src/components/handlers/loadPacketHandler.ts:227-236 | going backward, endOfResults is cleared when the trim dropped tuples and kept otherwise |
| Simulation.ApplyBackwardStretch | src/components/handlers/loadPacketHandler.ts:152-249 | merging the stretch right before a gapless window gives the window [lo, hi) |
| Simulation.ForwardLoadGapless | src/components/handlers/loadPacketHandler.ts:81-254 | a corrected forward load on a gapless window succeeds with the dataset [lo, hi), where hi is one packet past the end (capped by the dataset) and lo drops what exceeds loadSize; endOfResults says whether the dataset's end is reached |
| Simulation.BackwardLoadGapless | src/components/handlers/loadPacketHandler.ts:81-254 | a corrected backward load succeeds with the dataset [lo, hi), where lo is one packet before the start (0 at least) and hi drops what exceeds loadSize |
| Simulation.StepAgrees | src/components/handlers/loadPacketHandler.ts:190-210 | on a window where the source's boundaries are right, its load equals the corrected one |
| Simulation.ForwardLoadAsWritten | src/components/handlers/loadPacketHandler.ts:81-254 | where the source's boundaries are right, its forward load on a gapless window (null tuples rejected) succeeds with the dataset [lo, hi) and the flags of the corrected load |
| Simulation.BackwardLoadAsWritten | src/components/handlers/loadPacketHandler.ts:81-254 | the same going backward, with endOfResults by the backward rule |
| Simulation.LoadKeepsGapless | src/components/handlers/loadPacketHandler.ts:152-249 | every corrected load on a gapless window with a serving api succeeds and leaves a gapless window without repeated keys, whose extent equals its tuple count |
| Simulation.ForwardSessionRush | src/components/tests/loadPacketHandler/loadPacketHandler.forward.test.ts:13-26 | as written (null tuples rejected), an empty window at 0 loads the first 60 tuples (and so on for every session below) |
| Simulation.ForwardSessionFill | src/components/tests/loadPacketHandler/loadPacketHandler.forward.test.ts:28-56 | then packets of 30 up to 120 tuples |
| Simulation.ForwardSessionSlide | src/components/tests/loadPacketHandler/loadPacketHandler.forward.test.ts:58-71 | a full window slides to [30, 150) and leaves the beginning |
| Simulation.ForwardSessionBypass | src/components/tests/loadPacketHandler/loadPacketHandler.forward.test.ts:73-86 | with bypassLoadSize the window grows to [30, 180) |
| Simulation.ForwardSessionAnywhere | src/components/tests/loadPacketHandler/loadPacketHandler.forward.test.ts:140-156 | an empty window at 500 loads [500, 560) |
| Simulation.BackwardSessionRush | src/components/tests/loadPacketHandler/loadPacketHandler.backward.test.ts:32-49 | an empty window at 1000 loads the last 60 tuples |
| Simulation.BackwardSessionFill | src/components/tests/loadPacketHandler/loadPacketHandler.backward.test.ts:52-79 | then packets of 30 back to 880 |
| Simulation.BackwardSessionSlide | src/components/tests/loadPacketHandler/loadPacketHandler.backward.test.ts:82-94 | a full window slides back to [850, 970) |
| Simulation.BackwardSessionBypass | src/components/tests/loadPacketHandler/loadPacketHandler.backward.test.ts:97-109 | with bypassLoadSize the window grows back to [820, 970) |
| Simulation.BackwardSessionAnywhere | src/components/tests/loadPacketHandler/loadPacketHandler.backward.test.ts:169-184 | an empty window at 500 loads [440, 500) |
| Simulation.RushBoundariesAsWrittenIgnoreTrim | src/components/handlers/loadPacketHandler.ts:190-199 | loadSize 90 and inRushLoadSize 120: the source's first load holds the 90 tuples [30, 120) but reports the boundaries {0, 120}, so the window is no longer gapless; the corrected load reports {30, 120} |
| Simulation.ShortWindowBoundariesAsWrittenLoseHeldEnd | src/components/handlers/loadPacketHandler.ts:201-210 | the source's backward load from 10 tuples at [10, 20) holds [0, 20) but reports the boundaries {0, 10}, so the window is no longer gapless; the corrected load reports {0, 20} |
| Simulation.RejectingApiFailsLoad | src/components/handlers/loadPacketHandler.ts:138-252 | an api that rejects makes a load with valid sizes fail with its reason, under either rule |
| Simulation.MalformedApiFailsLoad | src/components/handlers/loadPacketHandler.ts:145-149 | a response `{foo: 'bar'}` fails the check with noBoundaries |

## Left out

- Promise scheduling, React state updates and the components that call the handlers (EndlessFeedHandler, EndlessScrollHandler) are not modelled. Each handler is one synchronous step, and the api is a function from request to outcome.
- Numbers are integers. Fractional sizes, boundaries and scroll positions, NaN and Infinity are left out.
- Keys are compared as values. In JavaScript, `===` compares object keys by reference.
- The Object, Number, Boolean and Array type tests are read on the Json datatype. Class instances and other prototypes are not modelled.
- Message texts are not modelled. An error carries only the arguments its template takes.
- A prop given explicitly as `undefined` inside `loadThreshold` is not modelled: `Object.assign` would copy it over the default of 1.
- RemoveHandler.RemoveHandler: the updater closure is modelled as applied at once to the boundaries it receives. The time between building it and applying it is not modelled. So a null held tuple fails the removal as one TypeError, whether the source throws it while matching the ids or later, when the updater filters the tuples.
- The test table of malformed responses expects a few arguments the source does not produce: notValidFlags('yet another string.') for the flags 'Yet another string.', and notValidTuple('A string.', 'api in queryResults') for the tuple 'A string' (checkApiReturn passes no origin). The lemmas state the arguments the source passes.
- The test suites expect `tooLarge` errors for the size props. No check in loadPacketHandler raises them, and the model follows the code.
- propsValidator is not part of this model.
- The resolved state's `error: null` field is left out.
- The test state names its held array `tuples`. loadPacketHandler reads `results`, and the model follows the code.
- The test windows that start beyond the dataset or away from a stretch boundary (forward.test.ts:88-138, backward.test.ts:17-30 and 112-167) are not stated as lemmas. The gapless theorems cover windows inside the dataset.
- In modes 1 and 2 the fake api rejects with an opaque reason. A non-numeric request parameter reads as 0.
- LoadPacketHandler.LoadPacket uses checkApiReturn with null tuples rejected (see Findings). The as-written acceptance of null tuples is modelled only in `ApiValidator.CheckApiReturnAsWritten`. So the key filter's TypeError arises in the load only from a null HELD tuple, never from an incoming one.
- LoadPacketHandler.LoadPacketHandlerRun: after a size check has rejected, the source still merges the response and calls resolve, which is ignored. The method skips that merge. The outcome is the same.
- LoadPacketHandler.LoadPacketHandlerRun checks the response with null tuples rejected, like `LoadPacket`. As written, checkApiReturn lets a null tuple through. On an empty window the source then resolves with it (queryResults `[null]` gives results `[null]`), where the method fails with notValidTuple(null). On a non-empty window the source fails with the key filter's TypeError.
- Simulation.LoadKeepsGapless is stated for any api that serves stretches of a dataset. The test simulator is one such api, by `Simulation.SimulatorServesStretches`.

## Findings

| source | as written | input that shows it | evidently intended | confidence | as-written member | corrected member |
|---|---|---|---|---|---|---|
| src/components/handlers/loadPacketHandler.ts:98-118 | a failed size check calls reject but does not return, so the api is still called | packetSize 0 on an empty window: the load rejects with packetSize.tooSmall, yet the api is asked for {start: 0, end: 0} | a failed check ends the load before the api is called | medium, not executed | LoadPacketHandler.InvalidConfigStillRequests | LoadPacketHandler.PlanRequest |
| src/components/handlers/loadPacketHandler.ts:52-60 | the tuple loop guards both checks with `tuple != null`, so null tuples pass | queryResults `[null, {key: 1}]` is accepted | reject a null tuple, as tuplesValidator does and as the test table at tests/loadPacketHandler/handlers.utils.ts:134-138 expects | high, not executed | ApiValidator.CheckApiReturnAcceptsNullTuple | ApiValidator.Validate |
| src/components/handlers/loadPacketHandler.ts:190-199 | the start is moved by the trimmed overlap only when more than adaptivePacketSize tuples remain; otherwise it is taken from the api | loadSize 90, inRushLoadSize 120, a first forward load: the window holds [30, 120) but the boundaries say {0, 120} | the boundaries describe the held tuples: the start moves by the trimmed overlap | high, not executed | Simulation.RushBoundariesAsWrittenIgnoreTrim | Simulation.LoadKeepsGapless |
| src/components/handlers/loadPacketHandler.ts:201-210 | going backward, the held end is kept only when more than adaptivePacketSize tuples remain; otherwise the api's end replaces it | 10 tuples held at [10, 20), default sizes, a backward load: the window holds [0, 20) but the boundaries say {0, 10} | the end stays that of the held window | high, not executed | Simulation.ShortWindowBoundariesAsWrittenLoseHeldEnd | Simulation.BackwardLoadGapless |
| src/components/handlers/removeHandler.ts:5-11 | end moves back by the number of ids that match, counting a repeated id each time | ids ["a", "a"] on tuples a, b at [0, 2): one tuple is removed but end becomes 0 | end moves back by the number of tuples removed | medium, not executed | RemoveHandler.DuplicateIdsOverShrinkEnd | RemoveHandler.RemoveTuples |

=== FILE: api_errors.dfy ===
/**
 * The rejections of the response checks. Each carries the arguments its
 * message template is built from; the message text itself is not modelled.
 */
module ApiErrors {

  import opened Wrappers
  import opened JsonValues

  datatype ApiError =
    | NoResults
    | NotValidResult(result: Json)
    | NoBoundaries
    | NotValidBoundaries(boundaries: Json)
    | NoStartBoundary
    | NotValidStartBoundary(start: Json)
    | NoEndBoundary
    | NotValidEndBoundary(end: Json)
    | StartGreaterThanEndBoundary(startValue: int, endValue: int)
    | NoFlags
    | NotValidFlags(flags: Json)
    | NoEndOfResultsFlag
    | NotValidEndOfResultsFlag(endOfResults: Json)
    | NotValidQueryResults(queryResults: Json)
    /** `origin` is None where the template is called without it. */
    | NotValidTuple(tuple: Json, origin: Option<string>)
    | NoTupleKey
}

=== FILE: api_validator.dfy ===
/**
 * The ordered shape checks on what an api resolved to. Two copies exist in
 * the repository: apiValidator, and checkApiReturn inlined in the packet
 * loader. They differ in two places, captured by `Checks`: apiValidator also
 * rejects start > end, and checkApiReturn lets null tuples through.
 */
module ApiValidator {

  import opened Wrappers
  import opened JsonValues
  import opened Window
  import opened ApiErrors
  import opened Settle
  import opened TuplesValidator

  datatype Checks = Checks(compareBoundaries: bool, nullTuplesAllowed: bool, tupleOrigin: Option<string>)

  /** apiValidator. */
  const ApiValidatorChecks := Checks(true, false, Some("api in queryResults"))

  /** checkApiReturn as written: no start/end comparison, null tuples skipped. */
  const CheckApiReturnAsWritten := Checks(false, true, None)

  /** checkApiReturn with null tuples rejected, as its own comment and tuplesValidator require. */
  const CheckApiReturnChecks := Checks(false, false, None)

  /** The boundaries checks, in order: presence, Object, start, end, start <= end. */
  function BoundariesError(boundaries: Json, compare: bool): Option<ApiError>
  {
    if boundaries.Null? then Some(NoBoundaries)
    else if !boundaries.Obj? then Some(NotValidBoundaries(boundaries))
    else
      var start, end := Get(boundaries, "start"), Get(boundaries, "end");
      if start.Null? then Some(NoStartBoundary)
      else if !start.Num? then Some(NotValidStartBoundary(start))
      else if end.Null? then Some(NoEndBoundary)
      else if !end.Num? then Some(NotValidEndBoundary(end))
      else if compare && start.n > end.n then Some(StartGreaterThanEndBoundary(start.n, end.n))
      else None
  }

  /** The flags checks, in order: presence, Object, endOfResults. */
  function FlagsError(flags: Json): Option<ApiError>
  {
    if flags.Null? then Some(NoFlags)
    else if !flags.Obj? then Some(NotValidFlags(flags))
    else
      var endOfResults := Get(flags, "endOfResults");
      if endOfResults.Null? then Some(NoEndOfResultsFlag)
      else if !endOfResults.Bool? then Some(NotValidEndOfResultsFlag(endOfResults))
      else None
  }

  /** The queryResults checks: absent is fine, otherwise an Array of good tuples. */
  function QueryResultsError(queryResults: Json, checks: Checks): Option<ApiError>
  {
    if queryResults.Null? then None
    else if !queryResults.Arr? then Some(NotValidQueryResults(queryResults))
    else FirstTupleError(queryResults.items, checks.tupleOrigin, checks.nullTuplesAllowed)
  }

  /** `apiResults.queryResults = []` when it is missing. */
  function Normalised(response: Json): Json
  {
    if response.Obj? && Get(response, "queryResults").Null? then Set(response, "queryResults", Arr([]))
    else response
  }

  /** A response every check accepts, stated field by field. */
  predicate Acceptable(response: Json, checks: Checks)
  {
    && response.Obj?
    && var boundaries := Get(response, "boundaries");
    && boundaries.Obj?
    && Get(boundaries, "start").Num?
    && Get(boundaries, "end").Num?
    && (checks.compareBoundaries ==> Get(boundaries, "start").n <= Get(boundaries, "end").n)
    && Get(response, "flags").Obj?
    && Get(Get(response, "flags"), "endOfResults").Bool?
    && var queryResults := Get(response, "queryResults");
    && (queryResults.Null? ||
        (queryResults.Arr? && forall i :: 0 <= i < |queryResults.items| ==>
                                GoodTuple(queryResults.items[i], checks.nullTuplesAllowed)))
  }

  /** A response as the merge reads it: numeric boundaries, a boolean flag, an Array of tuples. */
  predicate WellFormed(response: Json)
  {
    && Get(Get(response, "boundaries"), "start").Num?
    && Get(Get(response, "boundaries"), "end").Num?
    && Get(Get(response, "flags"), "endOfResults").Bool?
    && Get(response, "queryResults").Arr?
  }

  /**
   * The verdict of the cascade: the first check that fails, in source order,
   * or the response with queryResults defaulted to [].
   */
  function Validate(response: Json, checks: Checks): (r: Result<Json, ApiError>)
    ensures r.Success? <==> Acceptable(response, checks)
    ensures r.Success? ==> r.value == Normalised(response) && WellFormed(r.value)
    ensures r.Success? ==> forall name :: name != "queryResults" ==> Get(r.value, name) == Get(response, name)
    ensures response.Null? ==> r == Failure(NoResults)
    ensures !response.Null? && !response.Obj? ==> r == Failure(NotValidResult(response))
    ensures response.Obj? ==>
              var boundariesError := BoundariesError(Get(response, "boundaries"), checks.compareBoundaries);
              var flagsError := FlagsError(Get(response, "flags"));
              var queryResultsError := QueryResultsError(Get(response, "queryResults"), checks);
              && (boundariesError.Some? ==> r == Failure(boundariesError.value))
              && (boundariesError.None? && flagsError.Some? ==> r == Failure(flagsError.value))
              && (boundariesError.None? && flagsError.None? && queryResultsError.Some? ==>
                    r == Failure(queryResultsError.value))
  {
    if response.Null? then Failure(NoResults)
    else if !response.Obj? then Failure(NotValidResult(response))
    else
      var boundariesError := BoundariesError(Get(response, "boundaries"), checks.compareBoundaries);
      var flagsError := FlagsError(Get(response, "flags"));
      var queryResultsError := QueryResultsError(Get(response, "queryResults"), checks);
      if boundariesError.Some? then Failure(boundariesError.value)
      else if flagsError.Some? then Failure(flagsError.value)
      else if queryResultsError.Some? then Failure(queryResultsError.value)
      else Success(Normalised(response))
  }

  /** The pending state after a stretch of checks that rejects with `error`, if any. */
  function After(outcome: Option<Result<Json, ApiError>>, error: Option<ApiError>): Option<Result<Json, ApiError>>
  {
    if outcome.Some? then outcome
    else if error.Some? then Some(Failure(error.value))
    else None
  }

  /** The boundaries stretch of the cascade: start and end are each checked, then compared. */
  method RejectBadBoundaries(promise: Deferred<Json, ApiError>, boundaries: Json, compare: bool)
    modifies promise
    ensures promise.outcome == After(old(promise.outcome), BoundariesError(boundaries, compare))
  {
    if boundaries.Null? {
      promise.Reject(NoBoundaries);
    } else if !boundaries.Obj? {
      promise.Reject(NotValidBoundaries(boundaries));
    } else {
      var start, end := Get(boundaries, "start"), Get(boundaries, "end");
      if start.Null? {
        promise.Reject(NoStartBoundary);
      } else if !start.Num? {
        promise.Reject(NotValidStartBoundary(start));
      }
      if end.Null? {
        promise.Reject(NoEndBoundary);
      } else if !end.Num? {
        promise.Reject(NotValidEndBoundary(end));
      }
      if compare && start.Num? && end.Num? && start.n > end.n {
        promise.Reject(StartGreaterThanEndBoundary(start.n, end.n));
      }
    }
  }

  /** The flags stretch of the cascade. */
  method RejectBadFlags(promise: Deferred<Json, ApiError>, flags: Json)
    modifies promise
    ensures promise.outcome == After(old(promise.outcome), FlagsError(flags))
  {
    if flags.Null? {
      promise.Reject(NoFlags);
    } else if !flags.Obj? {
      promise.Reject(NotValidFlags(flags));
    } else {
      var endOfResults := Get(flags, "endOfResults");
      if endOfResults.Null? {
        promise.Reject(NoEndOfResultsFlag);
      } else if !endOfResults.Bool? {
        promise.Reject(NotValidEndOfResultsFlag(endOfResults));
      }
    }
  }

  /**
   * The checks as the source runs them: every failing check calls reject and
   * the cascade goes on; the first rejection is the one the caller sees, and
   * the final resolve only takes effect when nothing was rejected.
   */
  method CheckResponse(response: Json, checks: Checks) returns (r: Result<Json, ApiError>)
    ensures r == Validate(response, checks)
  {
    var promise := new Deferred<Json, ApiError>();
    var apiResults := response;
    if apiResults.Null? {
      promise.Reject(NoResults);
    } else if !apiResults.Obj? {
      promise.Reject(NotValidResult(apiResults));
    } else {
      RejectBadBoundaries(promise, Get(apiResults, "boundaries"), checks.compareBoundaries);
      RejectBadFlags(promise, Get(apiResults, "flags"));
      var queryResults := Get(apiResults, "queryResults");
      if !queryResults.Null? {
        if !queryResults.Arr? {
          promise.Reject(NotValidQueryResults(queryResults));
        } else {
          var scan := ScanTuples(queryResults.items, checks.tupleOrigin, checks.nullTuplesAllowed);
          if scan.Failure? {
            promise.Reject(scan.error);
          }
        }
      } else {
        apiResults := Set(apiResults, "queryResults", Arr([]));
      }
      assert promise.outcome == After(After(After(None,
        BoundariesError(Get(response, "boundaries"), checks.compareBoundaries)),
        FlagsError(Get(response, "flags"))),
        QueryResultsError(queryResults, checks));
    }
    promise.Resolve(apiResults);
    r := promise.outcome.value;
  }

  /** checkApiReturn as written accepts a null tuple that tuplesValidator rejects. */
  lemma CheckApiReturnAcceptsNullTuple()
    ensures var response := Obj(map[
              "boundaries" := Obj(map["start" := Num(0), "end" := Num(0)]),
              "flags" := Obj(map["endOfResults" := Bool(false)]),
              "queryResults" := Arr([Null, Obj(map["key" := Num(1)])])]);
            && Validate(response, CheckApiReturnAsWritten).Success?
            && Validate(response, CheckApiReturnChecks) == Failure(NotValidTuple(Null, None))
            && Validate(response, ApiValidatorChecks) == Failure(NotValidTuple(Null, Some("api in queryResults")))
  {
    var tuples := [Null, Obj(map["key" := Num(1)])];
    assert GoodTuple(tuples[1], true);
    FirstTupleErrorAt(tuples, None, false, 0);
    FirstTupleErrorAt(tuples, Some("api in queryResults"), false, 0);
  }

  /** The check rejects `response` with `error`, whether or not null tuples are let through. */
  predicate RejectedWith(response: Json, error: ApiError)
  {
    Validate(response, CheckApiReturnChecks) == Failure(error) && Validate(response, CheckApiReturnAsWritten) == Failure(error)
  }

  /** The malformed responses of the loader's test table up to the flags, each with the error it is rejected with. */
  lemma WrongResponsesRejected()
    ensures RejectedWith(Null, NoResults)
    ensures RejectedWith(Str("A string."), NotValidResult(Str("A string.")))
    ensures RejectedWith(Obj(map[]), NoBoundaries)
    ensures RejectedWith(Obj(map["boundaries" := Null]), NoBoundaries)
    ensures RejectedWith(Obj(map["boundaries" := Str("Another string.")]), NotValidBoundaries(Str("Another string.")))
  {
  }

  /** The rows with malformed boundaries. */
  lemma WrongBoundariesRejected()
    ensures RejectedWith(Obj(map["boundaries" := Obj(map[])]), NoStartBoundary)
    ensures RejectedWith(Obj(map["boundaries" := Obj(map["start" := Null])]), NoStartBoundary)
    ensures RejectedWith(Obj(map["boundaries" := Obj(map["start" := Str("There.")])]), NotValidStartBoundary(Str("There.")))
    ensures RejectedWith(Obj(map["boundaries" := Obj(map["start" := Num(0)])]), NoEndBoundary)
    ensures RejectedWith(Obj(map["boundaries" := Obj(map["start" := Num(0), "end" := Null])]), NoEndBoundary)
    ensures RejectedWith(Obj(map["boundaries" := Obj(map["start" := Num(0), "end" := Str("There.")])]),
                         NotValidEndBoundary(Str("There.")))
  {
  }

  /** The rows with good boundaries and malformed flags. */
  lemma WrongFlagsRejected()
    ensures var b := Obj(map["start" := Num(0), "end" := Num(0)]);
      && RejectedWith(Obj(map["boundaries" := b]), NoFlags)
      && RejectedWith(Obj(map["boundaries" := b, "flags" := Null]), NoFlags)
      && RejectedWith(Obj(map["boundaries" := b, "flags" := Str("Yet another string.")]),
                      NotValidFlags(Str("Yet another string.")))
      && RejectedWith(Obj(map["boundaries" := b, "flags" := Obj(map[])]), NoEndOfResultsFlag)
      && RejectedWith(Obj(map["boundaries" := b, "flags" := Obj(map["endOfResults" := Null])]), NoEndOfResultsFlag)
      && RejectedWith(Obj(map["boundaries" := b, "flags" := Obj(map["endOfResults" := Str("false")])]),
                      NotValidEndOfResultsFlag(Str("false")))
  {
  }

  /** The rows with good boundaries and flags and malformed queryResults (the null-tuple row is stated apart). */
  lemma WrongQueryResultsRejected()
    ensures var b, f := Obj(map["start" := Num(0), "end" := Num(0)]), Obj(map["endOfResults" := Bool(false)]);
      && RejectedWith(Obj(map["boundaries" := b, "flags" := f, "queryResults" := Obj(map[])]),
                      NotValidQueryResults(Obj(map[])))
      && RejectedWith(Obj(map["boundaries" := b, "flags" := f, "queryResults" := Arr([Str("A string")])]),
                      NotValidTuple(Str("A string"), None))
      && RejectedWith(Obj(map["boundaries" := b, "flags" := f, "queryResults" := Arr([Obj(map[])])]), NoTupleKey)
  {
    FirstTupleErrorAt([Str("A string")], None, false, 0);
    FirstTupleErrorAt([Str("A string")], None, true, 0);
    FirstTupleErrorAt([Obj(map[])], None, false, 0);
    FirstTupleErrorAt([Obj(map[])], None, true, 0);
  }

  /** The inline copy never compares the boundaries; apiValidator rejects start > end. */
  lemma InlineCheckIgnoresBoundaryOrder()
    ensures var response := Obj(map[
              "boundaries" := Obj(map["start" := Num(5), "end" := Num(2)]),
              "flags" := Obj(map["endOfResults" := Bool(true)])]);
            && Validate(response, CheckApiReturnChecks).Success?
            && Validate(response, ApiValidatorChecks) == Failure(StartGreaterThanEndBoundary(5, 2))
  {
  }
}

=== FILE: insert_handler.dfy ===
/**
 * insertHandler: splice incoming tuples into the held array at `index`,
 * dropping those whose key is already held. The held array of the component
 * state is changed in place; boundaries and flags are left alone.
 */
module InsertHandler {

  import opened Wrappers
  import opened JsonValues
  import opened Window

  /** The TypeError of reading `key` on a null tuple. */
  datatype InsertError = NullTupleKey

  /**
   * The held array after `splice(index, 0, ...unheld)`. splice reads its
   * index as slice does: negative counts from the end, clamped to the array.
   */
  function Spliced(held: seq<Json>, incoming: seq<Json>, index: int): (r: seq<Json>)
    ensures |r| == |held| + |Unheld(incoming, held)|
  {
    var at := SliceIndex(index, |held|);
    held[..at] + Unheld(incoming, held) + held[at..]
  }

  /** The component state whose `tuples` array insertHandler mutates. */
  class FeedState {
    var tuples: seq<Json>
    var boundaries: Boundaries
    var flags: Flags

    constructor (tuples: seq<Json>, boundaries: Boundaries, flags: Flags)
      ensures this.tuples == tuples && this.boundaries == boundaries && this.flags == flags
    {
      this.tuples := tuples;
      this.boundaries := boundaries;
      this.flags := flags;
    }

    /**
     * insertHandler(newTuples, state, index): returns the same, now longer,
     * array, or throws before the splice when the filter reads `key` on a
     * null tuple.
     */
    method Insert(newTuples: seq<Json>, index: int) returns (r: Result<seq<Json>, InsertError>)
      modifies this`tuples
      ensures FilterThrows(newTuples, old(tuples)) ==> r == Failure(NullTupleKey) && tuples == old(tuples)
      ensures !FilterThrows(newTuples, old(tuples)) ==>
                tuples == Spliced(old(tuples), newTuples, index) && r == Success(tuples)
      ensures UniqueKeys(old(tuples)) && UniqueKeys(newTuples) ==> UniqueKeys(tuples)
    {
      if FilterThrows(newTuples, tuples) {
        return Failure(NullTupleKey);
      }
      var filteredTuples := Unheld(newTuples, tuples);
      var at := SliceIndex(index, |tuples|);
      if UniqueKeys(tuples) && UniqueKeys(newTuples) {
        InsertKeepsKeysUnique(tuples, newTuples, at);
      }
      tuples := tuples[..at] + filteredTuples + tuples[at..];
      r := Success(tuples);
    }
  }

  /** The held tuples keep their order around the inserted block, which sits at `index`. */
  lemma InsertLayout(held: seq<Json>, incoming: seq<Json>, index: nat)
    requires index <= |held|
    ensures var r, k := Spliced(held, incoming, index), |Unheld(incoming, held)|;
            && r[..index] == held[..index]
            && r[index..index + k] == Unheld(incoming, held)
            && r[index + k..] == held[index..]
  {
  }

  /** With unique keys held and incoming, the spliced array has unique keys. */
  lemma InsertKeepsKeysUnique(held: seq<Json>, incoming: seq<Json>, index: nat)
    requires index <= |held|
    requires UniqueKeys(held) && UniqueKeys(incoming)
    ensures UniqueKeys(Spliced(held, incoming, index))
  {
    var survivors := Unheld(incoming, held);
    UnheldUnique(incoming, held);
    UnheldDisjoint(incoming, held);
    UniqueSlice(held, 0, index);
    UniqueSlice(held, index, |held|);
    assert KeysDisjoint(held[..index], survivors) by {
      forall i, j | 0 <= i < index && 0 <= j < |survivors| ensures KeyOf(held[..index][i]) != KeyOf(survivors[j]) {
        assert held[..index][i] == held[i];
      }
    }
    UniqueConcat(held[..index], survivors);
    assert KeysDisjoint(held[..index] + survivors, held[index..]) by {
      forall i, j | 0 <= i < index + |survivors| && 0 <= j < |held| - index
        ensures KeyOf((held[..index] + survivors)[i]) != KeyOf(held[index..][j])
      {
        assert held[index..][j] == held[index + j];
        if i < index {
          assert (held[..index] + survivors)[i] == held[i];
        } else {
          assert (held[..index] + survivors)[i] == survivors[i - index];
        }
      }
    }
    UniqueConcat(held[..index] + survivors, held[index..]);
  }

  /** Inserting only keys that are already held changes nothing. */
  lemma {:induction false} InsertHeldKeysIsNoop(held: seq<Json>, incoming: seq<Json>, index: nat)
    requires index <= |held|
    requires forall i :: 0 <= i < |incoming| ==> KeyOf(incoming[i]) in Keys(held)
    ensures Spliced(held, incoming, index) == held
  {
    UnheldAllHeld(incoming, held);
    assert held[..index] + [] + held[index..] == held;
  }

  /** A single tuple with a new key lands exactly at `index`. */
  lemma InsertedAtIndex(held: seq<Json>, tuple: Json, index: nat)
    requires index <= |held|
    requires KeyOf(tuple) !in Keys(held)
    ensures |Spliced(held, [tuple], index)| == |held| + 1
    ensures Spliced(held, [tuple], index)[index] == tuple
  {
    assert Unheld([tuple], held) == [tuple];
  }

  /** Only held keys are filtered out: two incoming tuples with one new key are both inserted. */
  lemma IncomingDuplicatesKept()
    ensures var t := Obj(map["key" := Str("a")]);
            Spliced([], [t, t], 0) == [t, t] && !UniqueKeys(Spliced([], [t, t], 0))
  {
    var t := Obj(map["key" := Str("a")]);
    assert Keys([]) == [];
    assert Unheld([t], []) == [t];
    assert Unheld([t, t], []) == [t] + Unheld([t], []);
  }
}

=== FILE: json.dfy ===
/**
 * The untrusted values an api may resolve to, as a JSON-like datatype.
 * A property that is missing from an object reads as Null: the handlers
 * test every property with `== null`, which holds for both.
 */
module JsonValues {

  datatype Json =
    | Null
    | Num(n: int)
    | Bool(b: bool)
    | Str(s: string)
    | Arr(items: seq<Json>)
    | Obj(fields: map<string, Json>)

  /** `value.name`, where a missing property (or any property of a non-object) is Null. */
  function Get(value: Json, name: string): (r: Json)
    ensures value.Obj? && name in value.fields ==> r == value.fields[name]
    ensures !(value.Obj? && name in value.fields) ==> r == Null
  {
    if value.Obj? && name in value.fields then value.fields[name] else Null
  }

  /** `value.name = v` on an object. */
  function Set(value: Json, name: string, v: Json): (r: Json)
    requires value.Obj?
    ensures r.Obj? && Get(r, name) == v
    ensures forall other :: other != name ==> Get(r, other) == Get(value, other)
  {
    Obj(value.fields[name := v])
  }
}

=== FILE: load_packet_handler.dfy ===
/**
 * loadPacketHandler: validate the size props, compute the range to request,
 * call the api, check its response, merge the new tuples into the held ones
 * without duplicating keys, trim to loadSize, and recompute the boundaries and
 * the exhaustion flags.
 *
 * The api is a parameter: whatever it settles with for a request is the
 * input of the merge.
 */
module LoadPacketHandler {

  import opened Wrappers
  import opened JsonValues
  import opened Window
  import opened ApiErrors
  import opened ApiValidator
  import opened Settle
  import opened TuplesValidator

  const DefaultPacketSize := 30
  const MinPacketSize := 1
  const MinLoadSize := 3
  const MinInRushLoadSize := 1

  /** The size props; None where the prop is not given. */
  datatype Props = Props(packetSize: Option<int>, loadSize: Option<int>, inRushLoad: Option<bool>,
                         inRushLoadSize: Option<int>, bypassLoadSize: bool)

  /** The size props with their defaults applied. */
  datatype Config = Config(packetSize: int, loadSize: int, inRushLoad: bool, inRushLoadSize: int, bypassLoadSize: bool)

  datatype ConfigError =
    | PacketSizeTooSmall(packetSize: int)
    | LoadSizeTooSmall(loadSize: int)
    | LoadSizeBelowPacketSize(loadSize: int, packetSize: int)
    | InRushLoadSizeTooSmall(inRushLoadSize: int)

  /** The part of the component state the loader reads. */
  datatype State = State(queryParams: map<string, Json>, boundaries: Boundaries, results: seq<Json>, flags: Flags)

  /** The parameters the api is called with. */
  type Request = map<string, Json>

  /** What the api's promise settles with. */
  datatype ApiOutcome = Resolved(value: Json) | Rejected(reason: Json)

  datatype LoadError =
    | BadConfig(config: ConfigError)
    | ApiRejected(reason: Json)
    | BadResponse(response: ApiError)
      /** The TypeError of the dedupe filter reading `key` on a null tuple. */
    | NullTupleKey

  /** The partial state the loader resolves with. */
  datatype NewState = NewState(launched: bool, loading: bool, results: seq<Json>, flags: Flags,
                               boundaries: Boundaries, apiResults: Json)

  // ---------------------------------------------------------------- configuration

  /** `Math.ceil(1.5 * packetSize)`: the least c with 2c >= 3 * packetSize. */
  function CeilThreeHalves(packetSize: int): (c: int)
    ensures 2 * c >= 3 * packetSize && 2 * (c - 1) < 3 * packetSize
  {
    (3 * packetSize + 1) / 2
  }

  /** The defaults: packetSize 30, loadSize 4 * packetSize, inRushLoad true, inRushLoadSize loadSize / 2. */
  function Defaulted(props: Props): (cfg: Config)
    ensures props.packetSize.None? ==> cfg.packetSize == DefaultPacketSize
    ensures props.loadSize.None? ==> cfg.loadSize == 4 * cfg.packetSize
    ensures props.inRushLoad.None? ==> cfg.inRushLoad
    ensures props.inRushLoadSize.None? ==> cfg.inRushLoadSize == cfg.loadSize / 2
    ensures props.packetSize.Some? ==> cfg.packetSize == props.packetSize.value
    ensures props.loadSize.Some? ==> cfg.loadSize == props.loadSize.value
    ensures props.inRushLoad.Some? ==> cfg.inRushLoad == props.inRushLoad.value
    ensures props.inRushLoadSize.Some? ==> cfg.inRushLoadSize == props.inRushLoadSize.value
    ensures cfg.bypassLoadSize == props.bypassLoadSize
  {
    var packetSize := if props.packetSize.None? then DefaultPacketSize else props.packetSize.value;
    var loadSize := if props.loadSize.None? then packetSize * 4 else props.loadSize.value;
    var inRushLoadSize := if props.inRushLoadSize.None? then loadSize / 2 else props.inRushLoadSize.value;
    Config(packetSize, loadSize, if props.inRushLoad.None? then true else props.inRushLoad.value,
           inRushLoadSize, props.bypassLoadSize)
  }

  /** A configuration every check accepts. */
  predicate ValidConfig(cfg: Config)
  {
    && cfg.packetSize >= MinPacketSize
    && (cfg.bypassLoadSize || cfg.loadSize >= MinLoadSize)
    && 2 * cfg.loadSize >= 3 * cfg.packetSize
    && cfg.inRushLoadSize >= MinInRushLoadSize
  }

  /** The checks, in source order; the first one that fails is the reported one. */
  function ResolveConfig(props: Props): (r: Result<Config, ConfigError>)
    ensures r.Success? <==> ValidConfig(Defaulted(props))
    ensures r.Success? ==> r.value == Defaulted(props)
  {
    var cfg := Defaulted(props);
    if cfg.packetSize < MinPacketSize then Failure(PacketSizeTooSmall(cfg.packetSize))
    else if cfg.loadSize < MinLoadSize && !cfg.bypassLoadSize then Failure(LoadSizeTooSmall(cfg.loadSize))
    else if cfg.loadSize < CeilThreeHalves(cfg.packetSize) then Failure(LoadSizeBelowPacketSize(cfg.loadSize, cfg.packetSize))
    else if cfg.inRushLoadSize < MinInRushLoadSize then Failure(InRushLoadSizeTooSmall(cfg.inRushLoadSize))
    else Success(cfg)
  }

  /** Each error names the failing prop's value, and every check before it passed. */
  lemma ResolveConfigFirstFailure(props: Props)
    ensures var cfg, r := Defaulted(props), ResolveConfig(props);
      r.Failure? ==> match r.error
        case PacketSizeTooSmall(p) => p == cfg.packetSize < MinPacketSize
        case LoadSizeTooSmall(l) =>
          && cfg.packetSize >= MinPacketSize
          && l == cfg.loadSize < MinLoadSize && !props.bypassLoadSize
        case LoadSizeBelowPacketSize(l, p) =>
          && p == cfg.packetSize >= MinPacketSize
          && (props.bypassLoadSize || cfg.loadSize >= MinLoadSize)
          && l == cfg.loadSize && 2 * l < 3 * p
        case InRushLoadSizeTooSmall(i) =>
          && ValidConfig(cfg.(inRushLoadSize := MinInRushLoadSize))
          && i == cfg.inRushLoadSize < MinInRushLoadSize
  {
  }

  // ---------------------------------------------------------------- request range

  /** The in-rush size while fewer tuples than it are held (and inRushLoad is on), packetSize otherwise. */
  function AdaptivePacketSize(cfg: Config, heldCount: nat): int
  {
    if cfg.inRushLoad && heldCount < cfg.inRushLoadSize then cfg.inRushLoadSize else cfg.packetSize
  }

  /** Loads always run forward: a backward load starts one packet before the held start. */
  function StartPoint(direction: Direction, boundaries: Boundaries, adaptivePacketSize: int): int
  {
    if direction == Forward then boundaries.end else boundaries.start - adaptivePacketSize
  }

  /** `{...queryParams, start, end}`: the range always wins over same-named query parameters. */
  function BuildRequest(queryParams: map<string, Json>, startPoint: int, adaptivePacketSize: int): (request: Request)
    ensures request.Keys == queryParams.Keys + {"start", "end"}
    ensures request["start"] == Num(startPoint) && request["end"] == Num(startPoint + adaptivePacketSize)
    ensures forall name :: name in queryParams && name != "start" && name != "end" ==>
                             request[name] == queryParams[name]
  {
    queryParams["start" := Num(startPoint)]["end" := Num(startPoint + adaptivePacketSize)]
  }

  /** The request derived from a configuration and the held state. */
  function RequestFor(direction: Direction, state: State, cfg: Config): Request
  {
    var adaptivePacketSize := AdaptivePacketSize(cfg, |state.results|);
    BuildRequest(state.queryParams, StartPoint(direction, state.boundaries, adaptivePacketSize), adaptivePacketSize)
  }

  /**
   * The request the loader sends, as written: the checks reject without
   * returning, so the api is called even when a check has failed.
   */
  function RequestAsWritten(direction: Direction, state: State, props: Props): Request
  {
    RequestFor(direction, state, Defaulted(props))
  }

  /** The request the loader sends, with a failed check ending the load before the api is called. */
  function PlanRequest(direction: Direction, state: State, props: Props): (r: Result<Request, ConfigError>)
    ensures r.Failure? <==> !ValidConfig(Defaulted(props))
    ensures r.Success? ==> var a := AdaptivePacketSize(Defaulted(props), |state.results|);
      && a >= 1 && "start" in r.value && "end" in r.value
      && r.value["end"] == Num(StartPoint(direction, state.boundaries, a) + a)
      && (direction == Forward ==> r.value["start"] == Num(state.boundaries.end))
      && (direction == Backward ==> r.value["end"] == Num(state.boundaries.start))
  {
    match ResolveConfig(props)
    case Failure(e) => Failure(e)
    case Success(cfg) => Success(RequestFor(direction, state, cfg))
  }

  /** With packetSize 0 the load is rejected, yet as written the api is still asked for {start: 0, end: 0}. */
  lemma InvalidConfigStillRequests()
    ensures var props := Props(Some(0), None, None, None, false);
            var initial := State(map[], Boundaries(0, 0), [], Flags(true, false));
            && ResolveConfig(props) == Failure(PacketSizeTooSmall(0))
            && PlanRequest(Forward, initial, props).Failure?
            && RequestAsWritten(Forward, initial, props) == map["start" := Num(0), "end" := Num(0)]
  {
    var initial := State(map[], Boundaries(0, 0), [], Flags(true, false));
    assert RequestAsWritten(Forward, initial, Props(Some(0), None, None, None, false))
        == map[]["start" := Num(0)]["end" := Num(0)];
  }

  // ---------------------------------------------------------------- merge

  /** The fields of a checked response the merge reads. */
  datatype ApiResults = ApiResults(boundaries: Boundaries, endOfResults: bool, queryResults: seq<Json>)

  function Decode(response: Json): ApiResults
    requires WellFormed(response)
  {
    ApiResults(Boundaries(Get(Get(response, "boundaries"), "start").n, Get(Get(response, "boundaries"), "end").n),
               Get(Get(response, "flags"), "endOfResults").b,
               Get(response, "queryResults").items)
  }

  /** New tuples go after the held ones going forward, before them going backward. */
  function Merge(direction: Direction, held: seq<Json>, fetched: seq<Json>): (merged: seq<Json>)
    ensures |merged| == |held| + |Unheld(fetched, held)|
    ensures direction == Forward ==> merged[..|held|] == held && merged[|held|..] == Unheld(fetched, held)
    ensures direction == Backward ==>
              merged[|merged| - |held|..] == held && merged[..|merged| - |held|] == Unheld(fetched, held)
  {
    var survivors := Unheld(fetched, held);
    if direction == Forward then held + survivors else survivors + held
  }

  /** The dedupe filter keeps a window free of repeated keys across merges. */
  lemma MergeKeepsKeysUnique(direction: Direction, held: seq<Json>, fetched: seq<Json>)
    requires UniqueKeys(held) && UniqueKeys(fetched)
    ensures UniqueKeys(Merge(direction, held, fetched))
  {
    var survivors := Unheld(fetched, held);
    UnheldUnique(fetched, held);
    UnheldDisjoint(fetched, held);
    if direction == Forward {
      UniqueConcat(held, survivors);
    } else {
      UniqueConcat(survivors, held);
    }
  }

  /** How far the merged tuples exceed loadSize (never negative). */
  function OverlapSize(mergedLength: nat, loadSize: int): nat
  {
    if mergedLength - loadSize >= 0 then mergedLength - loadSize else 0
  }

  /** Crop to loadSize unless bypassed: keep the newest end, i.e. the side just fetched. */
  function Trim(direction: Direction, merged: seq<Json>, loadSize: int, bypassLoadSize: bool): (kept: seq<Json>)
    requires bypassLoadSize || loadSize >= 1
    ensures bypassLoadSize ==> kept == merged
    ensures !bypassLoadSize ==> |kept| == if |merged| <= loadSize then |merged| else loadSize
    ensures direction == Forward ==> kept == merged[|merged| - |kept|..]
    ensures direction == Backward ==> kept == merged[..|kept|]
  {
    if bypassLoadSize || |merged| <= loadSize then merged
    else if direction == Forward then merged[|merged| - loadSize..]
    else merged[..loadSize]
  }

  /** The trim is `merged.slice(-loadSize)` going forward and `merged.slice(0, loadSize)` going backward. */
  lemma TrimIsSlice(direction: Direction, merged: seq<Json>, loadSize: int)
    requires loadSize >= 1
    ensures Trim(direction, merged, loadSize, false)
         == if direction == Forward then JsSlice(merged, -loadSize, |merged|) else JsSlice(merged, 0, loadSize)
  {
    SliceLast(merged, loadSize);
    SliceFirst(merged, loadSize);
  }

  /** The trim drops exactly the overlap. */
  lemma TrimDropsOverlap(direction: Direction, merged: seq<Json>, loadSize: int)
    requires loadSize >= 1
    ensures |Trim(direction, merged, loadSize, false)| == |merged| - OverlapSize(|merged|, loadSize)
  {
  }

  // ---------------------------------------------------------------- boundaries and flags

  /**
   * Which boundary update a load applies: the source's own, or the
   * corrected one in which the boundaries always describe the held tuples.
   */
  datatype BoundaryRule = AsWritten | Corrected

  /**
   * The boundaries as the source computes them: the side that was not
   * fetched is kept (moved by the trimmed overlap unless bypassed) only when
   * more than one packet is left after the trim; otherwise both sides are
   * taken from the api.
   */
  function NewBoundariesAsWritten(direction: Direction, previous: Boundaries, api: Boundaries, keptLength: nat,
                                  adaptivePacketSize: int, overlapSize: nat, bypassLoadSize: bool): (b: Boundaries)
    ensures direction == Forward ==> b.end == api.end
    ensures direction == Backward ==> b.start == api.start
    ensures keptLength <= adaptivePacketSize ==> b == api
    ensures keptLength > adaptivePacketSize && direction == Forward ==>
              b.start == previous.start + (if bypassLoadSize then 0 else overlapSize)
    ensures keptLength > adaptivePacketSize && direction == Backward ==>
              b.end == previous.end - (if bypassLoadSize then 0 else overlapSize)
  {
    var newStart :=
      if !bypassLoadSize then
        (if direction == Forward && keptLength > adaptivePacketSize then previous.start + overlapSize else api.start)
      else if direction == Backward || keptLength <= adaptivePacketSize then api.start
      else previous.start;
    var newEnd :=
      if !bypassLoadSize then
        (if direction == Backward && keptLength > adaptivePacketSize then previous.end - overlapSize else api.end)
      else if direction == Forward || keptLength <= adaptivePacketSize then api.end
      else previous.end;
    Boundaries(newStart, newEnd)
  }

  /**
   * The boundaries with the side that was not fetched continuing from the
   * held tuples whenever some were held (from the api's range on a first
   * load), and always moved by the overlap the trim dropped.
   */
  function NewBoundaries(direction: Direction, previous: Boundaries, api: Boundaries, heldCount: nat,
                         overlapSize: nat, bypassLoadSize: bool): (b: Boundaries)
    ensures direction == Forward ==> b.end == api.end
    ensures direction == Backward ==> b.start == api.start
    ensures direction == Forward ==>
              b.start == (if heldCount == 0 then api.start else previous.start) + (if bypassLoadSize then 0 else overlapSize)
    ensures direction == Backward ==>
              b.end == (if heldCount == 0 then api.end else previous.end) - (if bypassLoadSize then 0 else overlapSize)
    ensures heldCount == 0 && (bypassLoadSize || overlapSize == 0) ==> b == api
  {
    var dropped := if bypassLoadSize then 0 else overlapSize;
    var newStart :=
      if direction == Backward then api.start
      else (if heldCount == 0 then api.start else previous.start) + dropped;
    var newEnd :=
      if direction == Forward then api.end
      else (if heldCount == 0 then api.end else previous.end) - dropped;
    Boundaries(newStart, newEnd)
  }

  /** The two rules agree when tuples were held and more than one packet is kept, and on untrimmed first loads. */
  lemma BoundariesAgree(direction: Direction, previous: Boundaries, api: Boundaries, heldCount: nat, keptLength: nat,
                        adaptivePacketSize: int, overlapSize: nat, bypassLoadSize: bool)
    requires (heldCount > 0 && keptLength > adaptivePacketSize) ||
             (heldCount == 0 && keptLength <= adaptivePacketSize && (bypassLoadSize || overlapSize == 0))
    ensures NewBoundaries(direction, previous, api, heldCount, overlapSize, bypassLoadSize)
         == NewBoundariesAsWritten(direction, previous, api, keptLength, adaptivePacketSize, overlapSize, bypassLoadSize)
  {
  }

  /** The boundaries a rule gives. */
  function RuleBoundaries(rule: BoundaryRule, direction: Direction, previous: Boundaries, api: Boundaries,
                          heldCount: nat, keptLength: nat, adaptivePacketSize: int, overlapSize: nat,
                          bypassLoadSize: bool): Boundaries
  {
    match rule
    case AsWritten => NewBoundariesAsWritten(direction, previous, api, keptLength, adaptivePacketSize, overlapSize,
                                             bypassLoadSize)
    case Corrected => NewBoundaries(direction, previous, api, heldCount, overlapSize, bypassLoadSize)
  }

  /**
   * endOfResults: taken from the api going forward; going backward, an empty
   * window means the request ran past the start (so true when it reached
   * past 0), a trimmed tail means there is content after the window again,
   * and otherwise the flag is kept.
   */
  function NewEndOfResults(direction: Direction, previous: bool, api: bool, keptLength: nat,
                           startPoint: int, adaptivePacketSize: int, overlapping: bool): bool
  {
    if direction == Forward then api
    else if keptLength == 0 then startPoint + adaptivePacketSize > 0
    else if overlapping then false
    else previous
  }

  /** The state after merging a checked response, with the boundaries of `rule`. */
  function Apply(rule: BoundaryRule, direction: Direction, state: State, cfg: Config, response: Json): (r: NewState)
    requires ValidConfig(cfg) && WellFormed(response)
    ensures r.results == Trim(direction, Merge(direction, state.results, Decode(response).queryResults),
                              cfg.loadSize, cfg.bypassLoadSize)
    ensures !cfg.bypassLoadSize ==> |r.results| <= cfg.loadSize
    ensures var merged := Merge(direction, state.results, Decode(response).queryResults);
      r.boundaries == RuleBoundaries(rule, direction, state.boundaries, Decode(response).boundaries, |state.results|,
                                     |r.results|, AdaptivePacketSize(cfg, |state.results|),
                                     OverlapSize(|merged|, cfg.loadSize), cfg.bypassLoadSize)
    ensures r.flags.beginningOfResults <==> r.boundaries.start == 0
    ensures direction == Forward ==> r.flags.endOfResults == Decode(response).endOfResults
    ensures direction == Backward && |r.results| == 0 ==>
              (r.flags.endOfResults <==> state.boundaries.start > 0)
    ensures direction == Backward && |r.results| > 0 ==>
              var merged := Merge(direction, state.results, Decode(response).queryResults);
              r.flags.endOfResults
              == (if !cfg.bypassLoadSize && |merged| > cfg.loadSize then false else state.flags.endOfResults)
    ensures r.launched && !r.loading && r.apiResults == response
  {
    var api := Decode(response);
    var adaptivePacketSize := AdaptivePacketSize(cfg, |state.results|);
    var startPoint := StartPoint(direction, state.boundaries, adaptivePacketSize);
    var merged := Merge(direction, state.results, api.queryResults);
    var overlapSize := OverlapSize(|merged|, cfg.loadSize);
    var kept := Trim(direction, merged, cfg.loadSize, cfg.bypassLoadSize);
    var boundaries := RuleBoundaries(rule, direction, state.boundaries, api.boundaries, |state.results|, |kept|,
                                     adaptivePacketSize, overlapSize, cfg.bypassLoadSize);
    var endOfResults := NewEndOfResults(direction, state.flags.endOfResults, api.endOfResults, |kept|, startPoint,
                                        adaptivePacketSize, !cfg.bypassLoadSize && overlapSize > 0);
    NewState(true, false, kept, Flags(boundaries.start == 0, endOfResults), boundaries, response)
  }

  /** A load never leaves two held tuples with the same key, given the api sends none twice. */
  lemma ApplyKeepsKeysUnique(rule: BoundaryRule, direction: Direction, state: State, cfg: Config, response: Json)
    requires ValidConfig(cfg) && WellFormed(response)
    requires UniqueKeys(state.results) && UniqueKeys(Decode(response).queryResults)
    ensures UniqueKeys(Apply(rule, direction, state, cfg, response).results)
  {
    var merged := Merge(direction, state.results, Decode(response).queryResults);
    MergeKeepsKeysUnique(direction, state.results, Decode(response).queryResults);
    var kept := Trim(direction, merged, cfg.loadSize, cfg.bypassLoadSize);
    if direction == Forward {
      UniqueSlice(merged, |merged| - |kept|, |merged|);
    } else {
      UniqueSlice(merged, 0, |kept|);
    }
  }

  /**
   * The whole load: the size checks, the request, the api call, the
   * response check and the merge. The first failure is the outcome.
   */
  function LoadPacket(rule: BoundaryRule, direction: Direction, state: State, props: Props,
                      api: Request -> ApiOutcome): (r: Result<NewState, LoadError>)
    ensures r.Failure? && r.error.BadConfig? <==> !ValidConfig(Defaulted(props))
    ensures r.Success? ==> ValidConfig(Defaulted(props))
    ensures ValidConfig(Defaulted(props)) && api(RequestFor(direction, state, Defaulted(props))).Rejected? ==>
              r == Failure(ApiRejected(api(RequestFor(direction, state, Defaulted(props))).reason))
    ensures ValidConfig(Defaulted(props)) && api(RequestFor(direction, state, Defaulted(props))).Resolved? ==>
              var checked := Validate(api(RequestFor(direction, state, Defaulted(props))).value, CheckApiReturnChecks);
              && (checked.Failure? ==> r == Failure(BadResponse(checked.error)))
              && (checked.Success? && FilterThrows(Decode(checked.value).queryResults, state.results) ==>
                    r == Failure(NullTupleKey))
              && (checked.Success? && !FilterThrows(Decode(checked.value).queryResults, state.results) ==>
                    r == Success(Apply(rule, direction, state, Defaulted(props), checked.value)))
  {
    match PlanRequest(direction, state, props)
    case Failure(e) => Failure(BadConfig(e))
    case Success(request) =>
      match api(request)
      case Rejected(reason) => Failure(ApiRejected(reason))
      case Resolved(value) =>
        match Validate(value, CheckApiReturnChecks)
        case Failure(e) => Failure(BadResponse(e))
        case Success(checked) =>
          if FilterThrows(Decode(checked).queryResults, state.results) then Failure(NullTupleKey)
          else Success(Apply(rule, direction, state, Defaulted(props), checked))
  }

  /**
   * The two rules reach the same verdict, hold the same tuples and the same
   * endOfResults flag: they differ only in the boundaries and in the
   * beginningOfResults flag read from them.
   */
  lemma RulesDifferOnlyInBoundaries(direction: Direction, state: State, props: Props, api: Request -> ApiOutcome)
    ensures var w, c := LoadPacket(AsWritten, direction, state, props, api), LoadPacket(Corrected, direction, state, props, api);
      && (w.Failure? <==> c.Failure?)
      && (w.Failure? ==> w == c)
      && (w.Success? ==> w.value == c.value.(boundaries := w.value.boundaries,
                                             flags := c.value.flags.(beginningOfResults := w.value.boundaries.start == 0)))
  {
  }

  /** Where the as-written boundaries are right, the as-written load is the corrected one. */
  lemma RulesAgree(direction: Direction, state: State, props: Props, api: Request -> ApiOutcome)
    requires LoadPacket(Corrected, direction, state, props, api).Success?
    requires var kept, a := |LoadPacket(Corrected, direction, state, props, api).value.results|,
                            AdaptivePacketSize(Defaulted(props), |state.results|);
      || (|state.results| > 0 && kept > a)
      || (|state.results| == 0 && kept <= a && (props.bypassLoadSize || kept < Defaulted(props).loadSize))
    ensures LoadPacket(AsWritten, direction, state, props, api) == LoadPacket(Corrected, direction, state, props, api)
  {
    var cfg := Defaulted(props);
    var response := Validate(api(RequestFor(direction, state, cfg)).value, CheckApiReturnChecks).value;
    var merged := Merge(direction, state.results, Decode(response).queryResults);
    BoundariesAgree(direction, state.boundaries, Decode(response).boundaries, |state.results|,
                    |Apply(Corrected, direction, state, cfg, response).results|,
                    AdaptivePacketSize(cfg, |state.results|), OverlapSize(|merged|, cfg.loadSize), cfg.bypassLoadSize);
  }

  /**
   * A window whose first held tuple is null fails every load whose accepted
   * page is not empty: the key filter reads `key` on that tuple.
   */
  lemma HeldNullFailsLoad(rule: BoundaryRule, direction: Direction, state: State, props: Props,
                          api: Request -> ApiOutcome)
    requires ValidConfig(Defaulted(props))
    requires api(RequestFor(direction, state, Defaulted(props))).Resolved?
    requires var checked := Validate(api(RequestFor(direction, state, Defaulted(props))).value, CheckApiReturnChecks);
      checked.Success? && Decode(checked.value).queryResults != []
    requires state.results != [] && state.results[0].Null?
    ensures LoadPacket(rule, direction, state, props, api) == Failure(NullTupleKey)
  {
    var checked := Validate(api(RequestFor(direction, state, Defaulted(props))).value, CheckApiReturnChecks);
    FilterThrowsCases(Decode(checked.value).queryResults, state.results);
  }

  /** The page of an accepted response holds keyed Objects only: the check the load uses rejects null tuples. */
  lemma AcceptedTuplesAreObjects(response: Json)
    requires Validate(response, CheckApiReturnChecks).Success?
    ensures var page := Decode(Validate(response, CheckApiReturnChecks).value).queryResults;
      forall i :: 0 <= i < |page| ==> page[i].Obj? && !KeyOf(page[i]).Null?
  {
    var page := Decode(Normalised(response)).queryResults;
    if !Get(response, "queryResults").Null? {
      assert page == Get(response, "queryResults").items;
      forall i | 0 <= i < |page| ensures page[i].Obj? && !KeyOf(page[i]).Null? {
        assert GoodTuple(page[i], false);
      }
    }
  }

  /** A window holding no null tuple never fails a load with the TypeError. */
  lemma ObjectsLoadWithoutTypeError(rule: BoundaryRule, direction: Direction, state: State, props: Props,
                                    api: Request -> ApiOutcome)
    requires forall i :: 0 <= i < |state.results| ==> !state.results[i].Null?
    ensures LoadPacket(rule, direction, state, props, api) != Failure(NullTupleKey)
  {
    var cfg := Defaulted(props);
    if ValidConfig(cfg) && api(RequestFor(direction, state, cfg)).Resolved? {
      var response := api(RequestFor(direction, state, cfg)).value;
      var checked := Validate(response, CheckApiReturnChecks);
      if checked.Success? {
        AcceptedTuplesAreObjects(response);
        ObjectsFilterNeverThrows(Decode(checked.value).queryResults, state.results);
      }
    }
  }

  // ---------------------------------------------------------------- the handler, step by step

  /**
   * The prop checks as the source runs them: each failing check rejects and
   * the checks go on, so the first rejection is the outcome; the defaulted
   * sizes are computed whatever the verdict.
   */
  method ResolveSizes(props: Props) returns (cfg: Config, r: Result<Config, ConfigError>)
    ensures cfg == Defaulted(props)
    ensures r == ResolveConfig(props)
  {
    var verdict := new Deferred<Config, ConfigError>();
    var packetSize := if props.packetSize.None? then DefaultPacketSize else props.packetSize.value;
    var loadSize := if props.loadSize.None? then packetSize * 4 else props.loadSize.value;
    if packetSize < MinPacketSize {
      verdict.Reject(PacketSizeTooSmall(packetSize));
    }
    if loadSize < MinLoadSize && !props.bypassLoadSize {
      verdict.Reject(LoadSizeTooSmall(loadSize));
    }
    if loadSize < CeilThreeHalves(packetSize) {
      verdict.Reject(LoadSizeBelowPacketSize(loadSize, packetSize));
    }
    var inRushLoad := if props.inRushLoad.None? then true else props.inRushLoad.value;
    var inRushLoadSize := if props.inRushLoadSize.None? then loadSize / 2 else props.inRushLoadSize.value;
    if inRushLoadSize < MinInRushLoadSize {
      verdict.Reject(InRushLoadSizeTooSmall(inRushLoadSize));
    }
    cfg := Config(packetSize, loadSize, inRushLoad, inRushLoadSize, props.bypassLoadSize);
    verdict.Resolve(cfg);
    r := verdict.outcome.value;
  }

  /** The boundary update of the source, branch by branch. */
  method UpdateBoundaries(direction: Direction, previous: Boundaries, api: Boundaries, keptLength: nat,
                          adaptivePacketSize: int, overlapSize: nat, bypassLoadSize: bool) returns (b: Boundaries)
    ensures b == NewBoundariesAsWritten(direction, previous, api, keptLength, adaptivePacketSize, overlapSize,
                                        bypassLoadSize)
  {
    var newStart := previous.start;
    if !bypassLoadSize {
      if direction == Forward && keptLength > adaptivePacketSize {
        newStart := previous.start + overlapSize;
      } else {
        newStart := api.start;
      }
    } else if direction == Backward || keptLength <= adaptivePacketSize {
      newStart := api.start;
    }

    var newEnd := previous.end;
    if !bypassLoadSize {
      if direction == Backward && keptLength > adaptivePacketSize {
        newEnd := previous.end - overlapSize;
      } else {
        newEnd := api.end;
      }
    } else if direction == Forward || keptLength <= adaptivePacketSize {
      newEnd := api.end;
    }
    b := Boundaries(newStart, newEnd);
  }

  /** The key filter, which throws on a null tuple, then the merge, trim, boundary and flag updates, local by local. */
  method MergeResponse(direction: Direction, state: State, cfg: Config, apiResults: Json)
    returns (r: Result<NewState, LoadError>)
    requires ValidConfig(cfg) && WellFormed(apiResults)
    ensures FilterThrows(Decode(apiResults).queryResults, state.results) ==> r == Failure(NullTupleKey)
    ensures !FilterThrows(Decode(apiResults).queryResults, state.results) ==>
              r == Success(Apply(AsWritten, direction, state, cfg, apiResults))
  {
    var results := state.results;
    var adaptivePacketSize := AdaptivePacketSize(cfg, |results|);
    var startPoint := StartPoint(direction, state.boundaries, adaptivePacketSize);
    var api := Decode(apiResults);

    if FilterThrows(api.queryResults, results) {
      return Failure(NullTupleKey);
    }
    var preFilteredResults := Unheld(api.queryResults, results);
    var mergedContent := if direction == Forward then results + preFilteredResults else preFilteredResults + results;
    ghost var merged := mergedContent;
    assert merged == Merge(direction, results, api.queryResults);

    var overlapSize := |mergedContent| - cfg.loadSize;
    overlapSize := if overlapSize >= 0 then overlapSize else 0;
    assert overlapSize == OverlapSize(|merged|, cfg.loadSize);
    var isMergedContentOverlapping := !cfg.bypassLoadSize && overlapSize > 0;

    if !cfg.bypassLoadSize {
      TrimIsSlice(direction, mergedContent, cfg.loadSize);
      mergedContent := if direction == Forward then JsSlice(mergedContent, -cfg.loadSize, |mergedContent|)
                       else JsSlice(mergedContent, 0, cfg.loadSize);
    }
    assert mergedContent == Trim(direction, merged, cfg.loadSize, cfg.bypassLoadSize);

    var boundaries := UpdateBoundaries(direction, state.boundaries, api.boundaries, |mergedContent|,
                                       adaptivePacketSize, overlapSize, cfg.bypassLoadSize);

    var isEndOfResult := state.flags.endOfResults;
    if direction == Forward {
      isEndOfResult := api.endOfResults;
    } else if |mergedContent| == 0 {
      isEndOfResult := startPoint + adaptivePacketSize > 0;
    } else if isMergedContentOverlapping {
      isEndOfResult := false;
    }

    r := Success(NewState(true, false, mergedContent, Flags(boundaries.start == 0, isEndOfResult), boundaries, apiResults));
  }

  /**
   * loadPacketHandler on a settle-once promise, as written except that the
   * response check rejects null tuples: the prop checks reject without
   * returning, the api is called whatever they found, its rejection or a
   * failed response check rejects, and the merge resolves, or rejects with
   * the TypeError its key filter throws. The first
   * settlement is the outcome.
   */
  method LoadPacketHandlerRun(direction: Direction, state: State, props: Props, api: Request -> ApiOutcome)
    returns (request: Request, r: Result<NewState, LoadError>)
    ensures request == RequestAsWritten(direction, state, props)
    ensures r == LoadPacket(AsWritten, direction, state, props, api)
  {
    var promise := new Deferred<NewState, LoadError>();
    var cfg, sizes := ResolveSizes(props);
    if sizes.Failure? {
      promise.Reject(BadConfig(sizes.error));
    }
    var adaptivePacketSize := if cfg.inRushLoad && |state.results| < cfg.inRushLoadSize then cfg.inRushLoadSize else cfg.packetSize;
    var startPoint := if direction == Forward then state.boundaries.end else state.boundaries.start - adaptivePacketSize;
    request := BuildRequest(state.queryParams, startPoint, adaptivePacketSize);
    var outcome := api(request);
    if outcome.Rejected? {
      promise.Reject(ApiRejected(outcome.reason));
    } else {
      var checked := CheckResponse(outcome.value, CheckApiReturnChecks);
      if checked.Failure? {
        promise.Reject(BadResponse(checked.error));
      } else if promise.outcome.None? {
        var merged := MergeResponse(direction, state, cfg, checked.value);
        if merged.Failure? {
          promise.Reject(merged.error);
        } else {
          promise.Resolve(merged.value);
        }
      }
    }
    r := promise.outcome.value;
  }
}

=== FILE: remove_handler.dfy ===
/**
 * removeHandler: drop the held tuples whose key is one of `ids` and move the
 * end boundary back by the number of ids that matched a held key. The start
 * boundary is left alone. Reading `key` on a held null tuple throws.
 */
module RemoveHandler {

  import opened Wrappers
  import opened JsonValues
  import opened Window

  datatype Removal = Removal(tuples: seq<Json>, boundaries: Boundaries)

  /** The TypeError of reading `key` on a null tuple. */
  datatype RemoveError = NullTupleKey

  /** `ids.filter(x => tuples.find(y => y.key === x))`, duplicates included. */
  function FilteredIds(ids: seq<string>, tuples: seq<Json>): (r: seq<string>)
    ensures |r| <= |ids|
    ensures forall id :: id in r <==> id in ids && Str(id) in Keys(tuples)
    ensures forall id :: multiset(r)[id] == if Str(id) in Keys(tuples) then multiset(ids)[id] else 0
  {
    if ids == [] then []
    else
      assert ids == [ids[0]] + ids[1..];
      if Str(ids[0]) in Keys(tuples) then [ids[0]] + FilteredIds(ids[1..], tuples)
      else FilteredIds(ids[1..], tuples)
  }

  /** The matched ids keep the order they have in `ids`. */
  lemma {:induction false} FilteredIdsConcat(a: seq<string>, b: seq<string>, tuples: seq<Json>)
    ensures FilteredIds(a + b, tuples) == FilteredIds(a, tuples) + FilteredIds(b, tuples)
  {
    if a == [] {
      assert a + b == b;
    } else {
      assert (a + b)[0] == a[0] && (a + b)[1..] == a[1..] + b;
      FilteredIdsConcat(a[1..], b, tuples);
    }
  }

  /** The key of `tuple` is the string of one of `ids`. */
  predicate Named(tuple: Json, ids: seq<string>)
  {
    KeyOf(tuple).Str? && KeyOf(tuple).s in ids
  }

  /** `tuples.filter(x => !ids.includes(x.key))`. */
  function Without(tuples: seq<Json>, ids: seq<string>): (r: seq<Json>)
    ensures |r| <= |tuples|
    ensures forall t :: t in r <==> t in tuples && !Named(t, ids)
  {
    if tuples == [] then []
    else if Named(tuples[0], ids) then Without(tuples[1..], ids)
    else [tuples[0]] + Without(tuples[1..], ids)
  }

  /** The filter works tuple by tuple: the kept tuples stay in their order. */
  lemma {:induction false} WithoutConcat(a: seq<Json>, b: seq<Json>, ids: seq<string>)
    ensures Without(a + b, ids) == Without(a, ids) + Without(b, ids)
  {
    if a == [] {
      assert a + b == b;
    } else {
      assert (a + b)[0] == a[0] && (a + b)[1..] == a[1..] + b;
      WithoutConcat(a[1..], b, ids);
    }
  }

  /** Each tuple is dropped exactly when it is named, in place between its neighbours. */
  lemma WithoutAround(before: seq<Json>, t: Json, after: seq<Json>, ids: seq<string>)
    ensures Without(before + [t] + after, ids)
         == Without(before, ids) + (if Named(t, ids) then [] else [t]) + Without(after, ids)
  {
    WithoutConcat(before + [t], after, ids);
    WithoutConcat(before, [t], ids);
    assert Without([t], ids) == if Named(t, ids) then [] else [t] by {
      assert [t][1..] == [];
    }
  }

  /**
   * removeHandler(ids, state) applied to the boundaries current when the
   * state update runs. The filter of the held tuples reads `key` on every one
   * of them, so a held null tuple throws.
   */
  function RemoveHandler(ids: seq<string>, tuples: seq<Json>, boundaries: Boundaries): (r: Result<Removal, RemoveError>)
    ensures r.Failure? <==> Null in tuples
    ensures r.Failure? ==> r.error == NullTupleKey
    ensures r.Success? ==> r.value.boundaries.start == boundaries.start
    ensures r.Success? ==> r.value.boundaries.end == boundaries.end - |FilteredIds(ids, tuples)|
    ensures r.Success? ==> r.value.tuples == Without(tuples, ids)
    ensures r.Success? ==> forall t :: t in r.value.tuples <==> t in tuples && !Named(t, ids)
  {
    if Null in tuples then Failure(NullTupleKey)
    else
      var filteredIds := FilteredIds(ids, tuples);
      NamedByFilteredIds(tuples, ids);
      Success(Removal(Without(tuples, filteredIds),
                      Boundaries(boundaries.start, boundaries.end - |filteredIds|)))
  }

  /** Filtering by the matched ids removes the same tuples as filtering by all the ids, in the same order. */
  lemma {:induction false} NamedByFilteredIds(tuples: seq<Json>, ids: seq<string>)
    ensures Without(tuples, FilteredIds(ids, tuples)) == Without(tuples, ids)
  {
    var filteredIds := FilteredIds(ids, tuples);
    forall t | t in tuples ensures Named(t, filteredIds) == Named(t, ids) {
      if KeyOf(t).Str? && KeyOf(t).s in ids {
        var k :| 0 <= k < |tuples| && tuples[k] == t;
        assert Keys(tuples)[k] == KeyOf(t);
      }
    }
    WithoutAgrees(tuples, filteredIds, ids);
  }

  /** Two id lists that name the same held tuples remove the same tuples. */
  lemma {:induction false} WithoutAgrees(tuples: seq<Json>, a: seq<string>, b: seq<string>)
    requires forall t :: t in tuples ==> Named(t, a) == Named(t, b)
    ensures Without(tuples, a) == Without(tuples, b)
  {
    if tuples != [] {
      assert forall t :: t in tuples[1..] ==> t in tuples;
      WithoutAgrees(tuples[1..], a, b);
    }
  }

  /** Ids that match no held key leave the tuples and the boundaries as they are. */
  lemma {:induction false} RemoveAbsentIsNoop(ids: seq<string>, tuples: seq<Json>, boundaries: Boundaries)
    requires forall id :: id in ids ==> Str(id) !in Keys(tuples)
    ensures RemoveHandler(ids, tuples, boundaries)
         == if Null in tuples then Failure(NullTupleKey) else Success(Removal(tuples, boundaries))
  {
    NoneNamed(tuples, FilteredIds(ids, tuples));
  }

  lemma {:induction false} NoneNamed(tuples: seq<Json>, ids: seq<string>)
    requires forall id :: id in ids ==> Str(id) !in Keys(tuples)
    ensures Without(tuples, ids) == tuples
  {
    if tuples != [] {
      assert Keys(tuples)[0] == KeyOf(tuples[0]);
      assert forall i :: 0 <= i < |tuples[1..]| ==> Keys(tuples[1..])[i] == Keys(tuples)[i + 1];
      NoneNamed(tuples[1..], ids);
    }
  }

  /** An id repeated in `ids` moves `end` back twice while its tuple goes once. */
  lemma DuplicateIdsOverShrinkEnd()
    ensures var held := [Obj(map["key" := Str("a")]), Obj(map["key" := Str("b")])];
            var r := RemoveHandler(["a", "a"], held, Boundaries(0, 2));
            r.Success? && |r.value.tuples| == 1 && r.value.boundaries == Boundaries(0, 0)
  {
    var a, b := Obj(map["key" := Str("a")]), Obj(map["key" := Str("b")]);
    var held := [a, b];
    assert Null !in held;
    assert Keys(held) == [Str("a"), Str("b")];
    assert FilteredIds(["a"], held) == ["a"];
    assert FilteredIds(["a", "a"], held) == ["a", "a"];
    assert Without([b], ["a", "a"]) == [b];
    assert Without(held, ["a", "a"]) == [b];
  }

  /**
   * Removal that moves `end` back by the number of tuples actually removed,
   * so the extent of the boundaries still differs from the number of held
   * tuples by what it did before.
   */
  function RemoveTuples(ids: seq<string>, tuples: seq<Json>, boundaries: Boundaries): (r: Result<Removal, RemoveError>)
    ensures r.Failure? <==> Null in tuples
    ensures r.Failure? ==> r.error == NullTupleKey
    ensures r.Success? ==> r.value.boundaries.start == boundaries.start
    ensures r.Success? ==>
              r.value.boundaries.end - r.value.boundaries.start - |r.value.tuples|
              == boundaries.end - boundaries.start - |tuples|
    ensures r.Success? ==> r.value.tuples == Without(tuples, ids)
    ensures r.Success? ==> forall t :: t in r.value.tuples <==> t in tuples && !Named(t, ids)
  {
    if Null in tuples then Failure(NullTupleKey)
    else
      var kept := Without(tuples, ids);
      Success(Removal(kept, Boundaries(boundaries.start, boundaries.end - (|tuples| - |kept|))))
  }

  /** Every removed key is absent afterwards. */
  lemma RemovedKeysAbsent(ids: seq<string>, tuples: seq<Json>, boundaries: Boundaries, id: string)
    requires id in ids
    ensures RemoveTuples(ids, tuples, boundaries).Success? ==>
              Str(id) !in Keys(RemoveTuples(ids, tuples, boundaries).value.tuples)
    ensures RemoveHandler(ids, tuples, boundaries).Success? ==>
              Str(id) !in Keys(RemoveHandler(ids, tuples, boundaries).value.tuples)
  {
    if Null !in tuples {
      var a := Without(tuples, ids);
      forall k | 0 <= k < |a| ensures Keys(a)[k] != Str(id) {
        assert a[k] in a;
      }
    }
  }
}

=== FILE: scroll_handler.dfy ===
/**
 * scrollHandler: from the exhaustion flags, the optional loadThreshold prop
 * and the scroll position of the target, decide whether to load forward,
 * backward, or not at all (None).
 */
module ScrollHandler {

  import opened Wrappers
  import opened Window

  /** The `loadThreshold` prop: each field may be absent. */
  datatype LoadThreshold = LoadThreshold(top: Option<int>, bottom: Option<int>)

  datatype Threshold = Threshold(top: int, bottom: int)

  /** The scrolled element's geometry, in pixels. */
  datatype ScrollTarget = ScrollTarget(scrollTop: int, scrollHeight: int, offsetHeight: int)

  /** `Object.assign({top: 1, bottom: 1}, loadThreshold || {})`. */
  function EffectiveThreshold(loadThreshold: Option<LoadThreshold>): (t: Threshold)
    ensures loadThreshold.None? ==> t == Threshold(1, 1)
    ensures loadThreshold.Some? && loadThreshold.value.top.Some? ==> t.top == loadThreshold.value.top.value
    ensures loadThreshold.Some? && loadThreshold.value.top.None? ==> t.top == 1
    ensures loadThreshold.Some? && loadThreshold.value.bottom.Some? ==> t.bottom == loadThreshold.value.bottom.value
    ensures loadThreshold.Some? && loadThreshold.value.bottom.None? ==> t.bottom == 1
  {
    match loadThreshold
    case None => Threshold(1, 1)
    case Some(given) =>
      Threshold(if given.top.Some? then given.top.value else 1,
                if given.bottom.Some? then given.bottom.value else 1)
  }

  /** The view is within `bottom` pixels of the end of the scrollable content. */
  predicate NearBottom(target: ScrollTarget, threshold: Threshold)
  {
    target.scrollTop >= target.scrollHeight - target.offsetHeight - threshold.bottom
  }

  /** The view is within `top` pixels of the start of the scrollable content. */
  predicate NearTop(target: ScrollTarget, threshold: Threshold)
  {
    target.scrollTop <= threshold.top
  }

  function ScrollHandler(flags: Flags, loadThreshold: Option<LoadThreshold>, target: ScrollTarget): (r: Option<Direction>)
    ensures var t := EffectiveThreshold(loadThreshold);
            r == Some(Forward) <==> NearBottom(target, t) && !flags.endOfResults
    ensures var t := EffectiveThreshold(loadThreshold);
            r == Some(Backward) <==>
              (!(NearBottom(target, t) && !flags.endOfResults) && NearTop(target, t) && !flags.beginningOfResults)
  {
    var threshold := EffectiveThreshold(loadThreshold);
    if NearBottom(target, threshold) && !flags.endOfResults then Some(Forward)
    else if NearTop(target, threshold) && !flags.beginningOfResults then Some(Backward)
    else None
  }

  /** With both ends of the dataset reached, no scroll position asks for a load. */
  lemma BothEndsReachedNoLoad(loadThreshold: Option<LoadThreshold>, target: ScrollTarget)
    ensures ScrollHandler(Flags(true, true), loadThreshold, target) == None
  {
  }

  /** A view near both edges (a short list) loads forward first. */
  lemma ForwardBeforeBackward(flags: Flags, loadThreshold: Option<LoadThreshold>, target: ScrollTarget)
    requires NearBottom(target, EffectiveThreshold(loadThreshold))
    requires NearTop(target, EffectiveThreshold(loadThreshold))
    requires !flags.endOfResults
    ensures ScrollHandler(flags, loadThreshold, target) == Some(Forward)
  {
  }

  /** The decisions the scroll handler's test suite expects. */
  lemma ScrollHandlerCases()
    ensures ScrollHandler(Flags(true, true), None, ScrollTarget(0, 100, 100)) == None
    ensures ScrollHandler(Flags(true, true), None, ScrollTarget(0, 100, 1000)) == None
    ensures ScrollHandler(Flags(true, true), None, ScrollTarget(1000, 100, 1000)) == None
    ensures ScrollHandler(Flags(false, false), None, ScrollTarget(3000, 5000, 500)) == None
    ensures var t := Some(LoadThreshold(Some(799), Some(799)));
            && ScrollHandler(Flags(false, false), t, ScrollTarget(800, 5000, 500)) == None
            && ScrollHandler(Flags(false, false), t, ScrollTarget(3700, 5000, 500)) == None
            && ScrollHandler(Flags(false, false), t, ScrollTarget(3701, 5000, 500)) == Some(Forward)
            && ScrollHandler(Flags(false, true), t, ScrollTarget(3701, 5000, 500)) == None
            && ScrollHandler(Flags(false, false), t, ScrollTarget(799, 5000, 500)) == Some(Backward)
            && ScrollHandler(Flags(true, false), t, ScrollTarget(799, 5000, 500)) == None
            && ScrollHandler(Flags(false, false), t, ScrollTarget(0, 500, 500)) == Some(Forward)
            && ScrollHandler(Flags(false, true), t, ScrollTarget(0, 500, 500)) == Some(Backward)
  {
  }
}

=== FILE: settle.dfy ===
/**
 * The promise of `new Promise((resolve, reject) => ...)` as the handlers use it:
 * it settles once, and every later call to resolve or reject is ignored. The
 * validators call reject and carry on without returning, so what they report
 * is the first rejection they reach.
 */
module Settle {

  import opened Wrappers

  class Deferred<T, E> {
    /** None while pending; the first settlement once settled. */
    var outcome: Option<Result<T, E>>

    constructor ()
      ensures outcome == None
    {
      outcome := None;
    }

    method Reject(error: E)
      modifies this
      ensures outcome == if old(outcome).None? then Some(Failure(error)) else old(outcome)
    {
      if outcome.None? {
        outcome := Some(Failure(error));
      }
    }

    method Resolve(value: T)
      modifies this
      ensures outcome == if old(outcome).None? then Some(Success(value)) else old(outcome)
    {
      if outcome.None? {
        outcome := Some(Success(value));
      }
    }
  }
}

=== FILE: simulation.dfy ===
/**
 * The fake api the loader is exercised against: a dataset of 1000 tuples
 * `{index: i, key: "element-" + i}` served page by page (mode 0), an api that
 * always rejects (mode 1) and one that resolves to a malformed value (any
 * other mode). On it the loader keeps the held window gapless: the held
 * tuples are always exactly the dataset between the two boundaries.
 */
module Simulation {

  import opened Wrappers
  import opened JsonValues
  import opened Window
  import opened ApiErrors
  import opened ApiValidator
  import opened TuplesValidator
  import opened LoadPacketHandler

  const DatasetSize := 1000

  // ---------------------------------------------------------------- keys

  function DigitChar(d: nat): char
    requires d < 10
  {
    ('0' as int + d) as char
  }

  /** `${n}` for a natural number. */
  function Decimal(n: nat): (s: string)
    ensures |s| >= 1
  {
    if n < 10 then [DigitChar(n)] else Decimal(n / 10) + [DigitChar(n % 10)]
  }

  /** Reads back a string of decimal digits. */
  function ParseDecimal(s: string): int
  {
    if s == [] then 0 else 10 * ParseDecimal(s[..|s| - 1]) + (s[|s| - 1] as int - '0' as int)
  }

  lemma {:induction false} DecimalRoundTrip(n: nat)
    ensures ParseDecimal(Decimal(n)) == n
  {
    if n >= 10 {
      var s := Decimal(n);
      assert s[..|s| - 1] == Decimal(n / 10);
      DecimalRoundTrip(n / 10);
    }
  }

  function ElementKey(i: nat): string
  {
    "element-" + Decimal(i)
  }

  /** Distinct indices get distinct keys. */
  lemma ElementKeyInjective(i: nat, j: nat)
    requires i != j
    ensures ElementKey(i) != ElementKey(j)
  {
    if ElementKey(i) == ElementKey(j) {
      assert Decimal(i) == ElementKey(i)[8..];
      assert Decimal(j) == ElementKey(j)[8..];
      DecimalRoundTrip(i);
      DecimalRoundTrip(j);
    }
  }

  // ---------------------------------------------------------------- dataset

  function Element(i: nat): Json
  {
    Obj(map["index" := Num(i), "key" := Str(ElementKey(i))])
  }

  function Dataset(n: nat): (ds: seq<Json>)
    ensures |ds| == n
  {
    seq(n, i requires 0 <= i < n => Element(i))
  }

  lemma DatasetAt(n: nat, i: nat)
    requires i < n
    ensures Dataset(n)[i] == Element(i)
  {
  }

  /** Every tuple of the dataset is an Object with a key, and no key repeats. */
  lemma DatasetIsValid(n: nat)
    ensures ValidDataset(Dataset(n))
  {
    DatasetFacts(n);
    ValidDatasetFromFacts(Dataset(n));
  }

  lemma DatasetFacts(n: nat)
    ensures forall i :: 0 <= i < n ==> GoodTuple(Dataset(n)[i], false)
    ensures UniqueKeys(Dataset(n))
  {
    var ds := Dataset(n);
    forall i | 0 <= i < n ensures GoodTuple(ds[i], false) {
      DatasetAt(n, i);
    }
    forall i, j | 0 <= i < j < n ensures KeyOf(ds[i]) != KeyOf(ds[j]) {
      DatasetAt(n, i);
      DatasetAt(n, j);
      ElementKeyInjective(i, j);
    }
  }

  // ---------------------------------------------------------------- the fake api

  /** A numeric request parameter; a missing or non-numeric one reads as 0. */
  function ParamNum(params: Request, name: string): int
  {
    if name in params && params[name].Num? then params[name].n else 0
  }

  function Max0(x: int): nat
  {
    if x >= 0 then x else 0
  }

  function Min(x: int, y: int): int
  {
    if x <= y then x else y
  }

  /** Mode 0: the stretch of `ds` the request asks for, with negative positions moved to 0. */
  function Page(ds: seq<Json>, params: Request): Json
  {
    var cappedEnd := Max0(ParamNum(params, "end"));
    var newStart := Max0(ParamNum(params, "start"));
    var queryResults := JsSlice(ds, newStart, cappedEnd);
    var newEnd := newStart + |queryResults|;
    Obj(map["queryResults" := Arr(queryResults),
            "flags" := Obj(map["endOfResults" := Bool(newEnd >= |ds|)]),
            "boundaries" := Obj(map["start" := Num(newStart), "end" := Num(newEnd)])])
  }

  function Simulator(mode: int, ds: seq<Json>): Request -> ApiOutcome
  {
    params =>
      if mode == 0 then Resolved(Page(ds, params))
      else if mode == 1 then Rejected(Str("Error"))
      else Resolved(Obj(map["foo" := Str("bar")]))
  }

  /**
   * A page asked for from a position inside the dataset holds the dataset
   * from that position up to the requested end, or to the end of the dataset.
   */
  lemma PageContents(ds: seq<Json>, params: Request, lo: nat, hi: nat)
    requires lo == Max0(ParamNum(params, "start")) && hi == Max0(ParamNum(params, "end"))
    requires lo <= hi && lo <= |ds|
    ensures WellFormed(Page(ds, params))
    ensures Decode(Page(ds, params))
         == ApiResults(Boundaries(lo, Min(hi, |ds|)), Min(hi, |ds|) >= |ds|, ds[lo..Min(hi, |ds|)])
  {
    assert JsSlice(ds, lo, hi) == ds[lo..Min(hi, |ds|)];
  }

  /** A page of a dataset of Objects with keys passes checkApiReturn unchanged. */
  lemma PageAccepted(ds: seq<Json>, params: Request)
    requires forall i :: 0 <= i < |ds| ==> GoodTuple(ds[i], false)
    ensures Validate(Page(ds, params), CheckApiReturnChecks) == Success(Page(ds, params))
  {
    var page := Page(ds, params);
    var q := JsSlice(ds, Max0(ParamNum(params, "start")), Max0(ParamNum(params, "end")));
    forall i | 0 <= i < |q| ensures GoodTuple(q[i], false) {
      var lo, hi := SliceIndex(Max0(ParamNum(params, "start")), |ds|), SliceIndex(Max0(ParamNum(params, "end")), |ds|);
      assert q[i] == ds[lo + i];
    }
    assert Acceptable(page, CheckApiReturnChecks);
  }

  /** What an in-range request for [lo, hi) gets: the dataset from lo up to hi or to its end. */
  function StretchOf(ds: seq<Json>, lo: nat, hi: nat): ApiResults
    requires lo <= hi && lo <= |ds|
  {
    var top := Min(hi, |ds|);
    ApiResults(Boundaries(lo, top), top >= |ds|, ds[lo..top])
  }

  /**
   * The api's answer to a request. Facts about a serving api are stated on
   * this name, so a proof meets them only where it asks for them.
   */
  ghost function Answer(api: Request -> ApiOutcome, params: Request): ApiOutcome
  {
    api(params)
  }

  /**
   * An api serving `ds`: every request whose range starts inside the dataset
   * resolves to a response checkApiReturn accepts unchanged, carrying the
   * stretch of `ds` the range asks for.
   */
  ghost predicate ServesStretches(api: Request -> ApiOutcome, ds: seq<Json>)
  {
    forall params: Request {:trigger Answer(api, params)} ::
      var lo, hi := Max0(ParamNum(params, "start")), Max0(ParamNum(params, "end"));
      lo <= hi && lo <= |ds| ==>
        && Answer(api, params).Resolved?
        && WellFormed(Answer(api, params).value)
        && Decode(Answer(api, params).value) == StretchOf(ds, lo, hi)
        && Validate(Answer(api, params).value, CheckApiReturnChecks) == Success(Answer(api, params).value)
  }

  /** The fake api in mode 0 serves any dataset of Objects with keys. */
  lemma SimulatorServesStretches(ds: seq<Json>)
    requires ValidDataset(ds)
    ensures ServesStretches(Simulator(0, ds), ds)
  {
    ValidDatasetFacts(ds);
    forall params: Request | Max0(ParamNum(params, "start")) <= Max0(ParamNum(params, "end"))
                             && Max0(ParamNum(params, "start")) <= |ds|
      ensures Answer(Simulator(0, ds), params) == Resolved(Page(ds, params))
      ensures WellFormed(Page(ds, params))
      ensures Decode(Page(ds, params)) == StretchOf(ds, Max0(ParamNum(params, "start")), Max0(ParamNum(params, "end")))
      ensures Validate(Page(ds, params), CheckApiReturnChecks) == Success(Page(ds, params))
    {
      PageContents(ds, params, Max0(ParamNum(params, "start")), Max0(ParamNum(params, "end")));
      PageAccepted(ds, params);
    }
  }

  // ---------------------------------------------------------------- gapless windows

  /** A dataset the fake api can serve: Objects with keys, each key absent from the tuples after it. */
  predicate ValidDataset(ds: seq<Json>)
  {
    ds == [] || (GoodTuple(ds[0], false) && KeyOf(ds[0]) !in Keys(ds[1..]) && ValidDataset(ds[1..]))
  }

  lemma {:induction false} ValidDatasetFacts(ds: seq<Json>)
    requires ValidDataset(ds)
    ensures forall i :: 0 <= i < |ds| ==> GoodTuple(ds[i], false)
    ensures UniqueKeys(ds)
  {
    if ds != [] {
      var rest := ds[1..];
      ValidDatasetFacts(rest);
      forall i | 0 <= i < |ds| ensures GoodTuple(ds[i], false) {
        if i > 0 { assert ds[i] == rest[i - 1]; }
      }
      forall i, j | 0 <= i < j < |ds| ensures KeyOf(ds[i]) != KeyOf(ds[j]) {
        assert ds[j] == rest[j - 1];
        if i > 0 {
          assert ds[i] == rest[i - 1];
        } else {
          assert Keys(rest)[j - 1] == KeyOf(ds[j]);
        }
      }
    }
  }

  lemma {:induction false} ValidDatasetFromFacts(ds: seq<Json>)
    requires forall i :: 0 <= i < |ds| ==> GoodTuple(ds[i], false)
    requires UniqueKeys(ds)
    ensures ValidDataset(ds)
  {
    if ds != [] {
      var rest := ds[1..];
      assert forall i :: 0 <= i < |rest| ==> rest[i] == ds[i + 1];
      assert UniqueKeys(rest) by {
        forall i, j | 0 <= i < j < |rest| ensures KeyOf(rest[i]) != KeyOf(rest[j]) {
          assert rest[i] == ds[i + 1] && rest[j] == ds[j + 1];
        }
      }
      ValidDatasetFromFacts(rest);
      forall k | 0 <= k < |rest| ensures Keys(rest)[k] != KeyOf(ds[0]) {
        assert rest[k] == ds[k + 1];
      }
    }
  }

  /** The held tuples are exactly the dataset between the boundaries. */
  predicate Gapless(state: State, ds: seq<Json>)
  {
    && 0 <= state.boundaries.start <= state.boundaries.end <= |ds|
    && state.results == ds[state.boundaries.start..state.boundaries.end]
  }

  /** A gapless window of a valid dataset holds no null tuple. */
  lemma GaplessHoldsObjects(ds: seq<Json>, state: State)
    requires ValidDataset(ds) && Gapless(state, ds)
    ensures forall i :: 0 <= i < |state.results| ==> !state.results[i].Null?
  {
    ValidDatasetFacts(ds);
    forall i | 0 <= i < |state.results| ensures !state.results[i].Null? {
      assert state.results[i] == ds[state.boundaries.start + i];
    }
  }

  /** How many merged tuples the trim keeps. */
  function KeptCount(cfg: Config, mergedLength: nat): nat
  {
    if cfg.bypassLoadSize || mergedLength <= cfg.loadSize then mergedLength
    else if cfg.loadSize >= 0 then cfg.loadSize else 0
  }

  /** The component state after a load: the held part is replaced, queryParams are kept. */
  function Continue(state: State, r: NewState): State
  {
    state.(boundaries := r.boundaries, results := r.results, flags := r.flags)
  }

  /** A load on a window without null tuples, whose api resolves to a response the check accepts unchanged, is that response merged. */
  lemma LoadOfAcceptedResponse(direction: Direction, state: State, props: Props, api: Request -> ApiOutcome, response: Json)
    requires ValidConfig(Defaulted(props))
    requires forall i :: 0 <= i < |state.results| ==> !state.results[i].Null?
    requires api(RequestFor(direction, state, Defaulted(props))) == Resolved(response)
    requires Validate(response, CheckApiReturnChecks) == Success(response)
    ensures WellFormed(response)
    ensures LoadPacket(Corrected, direction, state, props, api) == Success(Apply(Corrected, direction, state, Defaulted(props), response))
  {
    ObjectsLoadWithoutTypeError(Corrected, direction, state, props, api);
  }

  /** The range a forward request on a window asks for: one packet from the held end. */
  lemma ForwardRange(state: State, cfg: Config)
    ensures var request := RequestFor(Forward, state, cfg);
      var a := AdaptivePacketSize(cfg, |state.results|);
      && ParamNum(request, "start") == state.boundaries.end
      && ParamNum(request, "end") == state.boundaries.end + a
  {
  }

  /** The range a backward request on a window asks for: one packet up to the held start. */
  lemma BackwardRange(state: State, cfg: Config)
    ensures var request := RequestFor(Backward, state, cfg);
      var a := AdaptivePacketSize(cfg, |state.results|);
      && ParamNum(request, "start") == state.boundaries.start - a
      && ParamNum(request, "end") == state.boundaries.start
  {
  }

  /** Two non-overlapping stretches of a sequence with unique keys share no key. */
  lemma UniqueStretchesDisjoint(ds: seq<Json>, lo: nat, mid: nat, hi: nat)
    requires lo <= mid <= hi <= |ds| && UniqueKeys(ds)
    ensures KeysDisjoint(ds[mid..hi], ds[lo..mid]) && KeysDisjoint(ds[lo..mid], ds[mid..hi])
  {
    forall i, j | 0 <= i < hi - mid && 0 <= j < mid - lo
      ensures KeyOf(ds[mid..hi][i]) != KeyOf(ds[lo..mid][j])
      ensures KeyOf(ds[lo..mid][j]) != KeyOf(ds[mid..hi][i])
    {
      assert ds[mid..hi][i] == ds[mid + i] && ds[lo..mid][j] == ds[lo + j];
    }
  }

  /** The dedupe filter lets a neighbouring stretch through whole, so merging joins the two stretches. */
  lemma MergeStretches(ds: seq<Json>, lo: nat, mid: nat, hi: nat)
    requires lo <= mid <= hi <= |ds| && UniqueKeys(ds)
    ensures Merge(Forward, ds[lo..mid], ds[mid..hi]) == ds[lo..hi]
    ensures Merge(Backward, ds[mid..hi], ds[lo..mid]) == ds[lo..hi]
  {
    UniqueStretchesDisjoint(ds, lo, mid, hi);
    assert ds[lo..mid] + ds[mid..hi] == ds[lo..hi];
    assert Unheld(ds[mid..hi], ds[lo..mid]) == ds[mid..hi] by {
      UnheldAllNew(ds[mid..hi], ds[lo..mid]);
    }
    assert Unheld(ds[lo..mid], ds[mid..hi]) == ds[lo..mid] by {
      UnheldAllNew(ds[lo..mid], ds[mid..hi]);
    }
  }

  /** How many tuples the trim keeps, in terms of KeptCount. */
  lemma TrimCount(direction: Direction, merged: seq<Json>, cfg: Config)
    requires ValidConfig(cfg)
    ensures |Trim(direction, merged, cfg.loadSize, cfg.bypassLoadSize)| == KeptCount(cfg, |merged|)
  {
  }

  /** Trimming a stretch going forward keeps its newest end. */
  lemma TrimForwardStretch(ds: seq<Json>, cfg: Config, lo: nat, hi: nat)
    requires lo <= hi <= |ds| && ValidConfig(cfg)
    ensures hi - KeptCount(cfg, hi - lo) >= lo
    ensures Trim(Forward, ds[lo..hi], cfg.loadSize, cfg.bypassLoadSize) == ds[hi - KeptCount(cfg, hi - lo)..hi]
  {
    var m := ds[lo..hi];
    TrimCount(Forward, m, cfg);
    var k := KeptCount(cfg, hi - lo);
    assert m[|m| - k..] == ds[hi - k..hi];
  }

  /** Trimming a stretch going backward keeps its oldest end. */
  lemma TrimBackwardStretch(ds: seq<Json>, cfg: Config, lo: nat, hi: nat)
    requires lo <= hi <= |ds| && ValidConfig(cfg)
    ensures lo + KeptCount(cfg, hi - lo) <= hi
    ensures Trim(Backward, ds[lo..hi], cfg.loadSize, cfg.bypassLoadSize) == ds[lo..lo + KeptCount(cfg, hi - lo)]
  {
    var m := ds[lo..hi];
    TrimCount(Backward, m, cfg);
    var k := KeptCount(cfg, hi - lo);
    assert m[..k] == ds[lo..lo + k];
  }

  /** The preconditions shared by the forward merge lemmas: the response carries the stretch right after the window. */
  predicate ForwardStretchCase(ds: seq<Json>, state: State, cfg: Config, response: Json, lo: int, hi: nat, endOfResults: bool)
  {
    && ValidConfig(cfg) && Gapless(state, ds) && WellFormed(response)
    && state.boundaries.end <= hi <= |ds|
    && lo == hi - KeptCount(cfg, hi - state.boundaries.start)
    && Merge(Forward, ds[state.boundaries.start..state.boundaries.end], ds[state.boundaries.end..hi])
       == ds[state.boundaries.start..hi]
    && Decode(response) == ApiResults(Boundaries(state.boundaries.end, hi), endOfResults,
                                      ds[state.boundaries.end..hi])
  }

  lemma ApplyForwardResults(ds: seq<Json>, state: State, cfg: Config, response: Json, lo: int, hi: nat, endOfResults: bool)
    requires ForwardStretchCase(ds, state, cfg, response, lo, hi, endOfResults)
    ensures state.boundaries.start <= lo <= hi
    ensures Apply(Corrected, Forward, state, cfg, response).results == ds[lo..hi]
  {
    var merged := Merge(Forward, state.results, Decode(response).queryResults);
    assert merged == ds[state.boundaries.start..hi];
    TrimForwardStretch(ds, cfg, state.boundaries.start, hi);
    assert Apply(Corrected, Forward, state, cfg, response).results == Trim(Forward, merged, cfg.loadSize, cfg.bypassLoadSize);
  }

  lemma ApplyForwardBoundaries(ds: seq<Json>, state: State, cfg: Config, response: Json, lo: int, hi: nat, endOfResults: bool)
    requires ForwardStretchCase(ds, state, cfg, response, lo, hi, endOfResults)
    ensures Apply(Corrected, Forward, state, cfg, response).boundaries == Boundaries(lo, hi)
  {
    var s, e := state.boundaries.start, state.boundaries.end;
    var merged := Merge(Forward, state.results, Decode(response).queryResults);
    assert |merged| == hi - s;
  }

  /** Merging the stretch of `ds` right after a gapless window. */
  lemma ApplyForwardStretch(ds: seq<Json>, state: State, cfg: Config, response: Json, lo: int, hi: nat, endOfResults: bool)
    requires ForwardStretchCase(ds, state, cfg, response, lo, hi, endOfResults)
    ensures state.boundaries.start <= lo <= hi
    ensures Apply(Corrected, Forward, state, cfg, response)
         == NewState(true, false, ds[lo..hi], Flags(lo == 0, endOfResults), Boundaries(lo, hi), response)
  {
    ApplyForwardResults(ds, state, cfg, response, lo, hi, endOfResults);
    ApplyForwardBoundaries(ds, state, cfg, response, lo, hi, endOfResults);
  }

  /** The preconditions shared by the backward merge lemmas: the response carries the stretch right before the window. */
  predicate BackwardStretchCase(ds: seq<Json>, state: State, cfg: Config, response: Json, lo: nat, hi: int, endOfResults: bool)
  {
    && ValidConfig(cfg) && Gapless(state, ds) && WellFormed(response)
    && lo <= state.boundaries.start
    && hi == lo + KeptCount(cfg, state.boundaries.end - lo)
    && Merge(Backward, ds[state.boundaries.start..state.boundaries.end], ds[lo..state.boundaries.start])
       == ds[lo..state.boundaries.end]
    && lo == Max0(state.boundaries.start - AdaptivePacketSize(cfg, |state.results|))
    && Decode(response) == ApiResults(Boundaries(lo, state.boundaries.start), endOfResults,
                                      ds[lo..state.boundaries.start])
  }

  lemma ApplyBackwardResults(ds: seq<Json>, state: State, cfg: Config, response: Json, lo: nat, hi: int, endOfResults: bool)
    requires BackwardStretchCase(ds, state, cfg, response, lo, hi, endOfResults)
    ensures lo <= hi <= state.boundaries.end
    ensures Apply(Corrected, Backward, state, cfg, response).results == ds[lo..hi]
  {
    var merged := Merge(Backward, state.results, Decode(response).queryResults);
    assert merged == ds[lo..state.boundaries.end];
    TrimBackwardStretch(ds, cfg, lo, state.boundaries.end);
    assert Apply(Corrected, Backward, state, cfg, response).results == Trim(Backward, merged, cfg.loadSize, cfg.bypassLoadSize);
  }

  lemma ApplyBackwardBoundaries(ds: seq<Json>, state: State, cfg: Config, response: Json, lo: nat, hi: int, endOfResults: bool)
    requires BackwardStretchCase(ds, state, cfg, response, lo, hi, endOfResults)
    ensures Apply(Corrected, Backward, state, cfg, response).boundaries == Boundaries(lo, hi)
  {
    var s, e := state.boundaries.start, state.boundaries.end;
    var merged := Merge(Backward, state.results, Decode(response).queryResults);
    assert |merged| == e - lo;
  }

  lemma ApplyBackwardFlags(ds: seq<Json>, state: State, cfg: Config, response: Json, lo: nat, hi: int, endOfResults: bool)
    requires BackwardStretchCase(ds, state, cfg, response, lo, hi, endOfResults)
    ensures var e := state.boundaries.end;
      Apply(Corrected, Backward, state, cfg, response).flags.endOfResults
      == if hi == lo || (!cfg.bypassLoadSize && e - lo > cfg.loadSize) then false else state.flags.endOfResults
  {
    var s, e := state.boundaries.start, state.boundaries.end;
    var merged := Merge(Backward, state.results, Decode(response).queryResults);
    assert |merged| == e - lo;
    TrimCount(Backward, merged, cfg);
    assert KeptCount(cfg, e - lo) == 0 ==> s == 0;
  }

  /** The new endOfResults flag after a backward load on a gapless window from [s, e) to [lo, hi). */
  function BackwardEndOfResults(state: State, cfg: Config, lo: int, hi: int): bool
  {
    if hi == lo || (!cfg.bypassLoadSize && state.boundaries.end - lo > cfg.loadSize) then false
    else state.flags.endOfResults
  }

  /** Merging the stretch of `ds` right before a gapless window. */
  lemma ApplyBackwardStretch(ds: seq<Json>, state: State, cfg: Config, response: Json, lo: nat, hi: int, endOfResults: bool)
    requires BackwardStretchCase(ds, state, cfg, response, lo, hi, endOfResults)
    ensures lo <= hi <= state.boundaries.end
    ensures Apply(Corrected, Backward, state, cfg, response)
         == NewState(true, false, ds[lo..hi], Flags(lo == 0, BackwardEndOfResults(state, cfg, lo, hi)),
                     Boundaries(lo, hi), response)
  {
    ApplyBackwardResults(ds, state, cfg, response, lo, hi, endOfResults);
    ApplyBackwardBoundaries(ds, state, cfg, response, lo, hi, endOfResults);
    ApplyBackwardFlags(ds, state, cfg, response, lo, hi, endOfResults);
  }

  /** What a serving api answers to the forward request on a gapless window: the packet right after it. */
  lemma ServedForward(ds: seq<Json>, state: State, cfg: Config, api: Request -> ApiOutcome, hi: int)
    requires ValidConfig(cfg) && Gapless(state, ds) && ServesStretches(api, ds)
    requires hi == Min(state.boundaries.end + AdaptivePacketSize(cfg, |state.results|), |ds|)
    ensures state.boundaries.end <= hi <= |ds|
    ensures api(RequestFor(Forward, state, cfg)).Resolved?
    ensures var response := api(RequestFor(Forward, state, cfg)).value;
      && WellFormed(response)
      && Decode(response) == ApiResults(Boundaries(state.boundaries.end, hi), hi >= |ds|, ds[state.boundaries.end..hi])
      && Validate(response, CheckApiReturnChecks) == Success(response)
  {
    ForwardRange(state, cfg);
    assert Answer(api, RequestFor(Forward, state, cfg)) == api(RequestFor(Forward, state, cfg));
  }

  /** What a serving api answers to the backward request on a gapless window: the packet right before it. */
  lemma ServedBackward(ds: seq<Json>, state: State, cfg: Config, api: Request -> ApiOutcome, lo: int)
    requires ValidConfig(cfg) && Gapless(state, ds) && ServesStretches(api, ds)
    requires lo == Max0(state.boundaries.start - AdaptivePacketSize(cfg, |state.results|))
    ensures 0 <= lo <= state.boundaries.start
    ensures api(RequestFor(Backward, state, cfg)).Resolved?
    ensures var response := api(RequestFor(Backward, state, cfg)).value;
      && WellFormed(response)
      && Decode(response) == ApiResults(Boundaries(lo, state.boundaries.start), state.boundaries.start >= |ds|,
                                        ds[lo..state.boundaries.start])
      && Validate(response, CheckApiReturnChecks) == Success(response)
  {
    BackwardRange(state, cfg);
    assert Answer(api, RequestFor(Backward, state, cfg)) == api(RequestFor(Backward, state, cfg));
  }

  /** The merge of what a serving api answers going forward from a gapless window. */
  lemma ForwardApply(ds: seq<Json>, state: State, cfg: Config, api: Request -> ApiOutcome, lo: int, hi: int)
    requires ValidDataset(ds) && ValidConfig(cfg) && Gapless(state, ds) && ServesStretches(api, ds)
    requires hi == Min(state.boundaries.end + AdaptivePacketSize(cfg, |state.results|), |ds|)
    requires lo == hi - KeptCount(cfg, hi - state.boundaries.start)
    ensures 0 <= state.boundaries.start <= lo <= hi <= |ds|
    ensures api(RequestFor(Forward, state, cfg)).Resolved?
    ensures var response := api(RequestFor(Forward, state, cfg)).value;
      && WellFormed(response)
      && Validate(response, CheckApiReturnChecks) == Success(response)
      && Apply(Corrected, Forward, state, cfg, response)
         == NewState(true, false, ds[lo..hi], Flags(lo == 0, hi >= |ds|), Boundaries(lo, hi), response)
  {
    var s, e := state.boundaries.start, state.boundaries.end;
    ServedForward(ds, state, cfg, api, hi);
    assert Merge(Forward, ds[s..e], ds[e..hi]) == ds[s..hi] by {
      ValidDatasetFacts(ds);
      MergeStretches(ds, s, e, hi);
    }
    ApplyForwardStretch(ds, state, cfg, api(RequestFor(Forward, state, cfg)).value, lo, hi, hi >= |ds|);
  }

  /** The merge of what a serving api answers going backward from a gapless window. */
  lemma BackwardApply(ds: seq<Json>, state: State, cfg: Config, api: Request -> ApiOutcome, lo: int, hi: int)
    requires ValidDataset(ds) && ValidConfig(cfg) && Gapless(state, ds) && ServesStretches(api, ds)
    requires lo == Max0(state.boundaries.start - AdaptivePacketSize(cfg, |state.results|))
    requires hi == lo + KeptCount(cfg, state.boundaries.end - lo)
    ensures 0 <= lo <= state.boundaries.start && lo <= hi <= state.boundaries.end
    ensures api(RequestFor(Backward, state, cfg)).Resolved?
    ensures var response := api(RequestFor(Backward, state, cfg)).value;
      && WellFormed(response)
      && Validate(response, CheckApiReturnChecks) == Success(response)
      && Apply(Corrected, Backward, state, cfg, response)
         == NewState(true, false, ds[lo..hi], Flags(lo == 0, BackwardEndOfResults(state, cfg, lo, hi)),
                     Boundaries(lo, hi), response)
  {
    var s, e := state.boundaries.start, state.boundaries.end;
    ServedBackward(ds, state, cfg, api, lo);
    assert Merge(Backward, ds[s..e], ds[lo..s]) == ds[lo..e] by {
      ValidDatasetFacts(ds);
      MergeStretches(ds, lo, s, e);
    }
    ApplyBackwardStretch(ds, state, cfg, api(RequestFor(Backward, state, cfg)).value, lo, hi, s >= |ds|);
  }

  /** A load on a window without null tuples whose api answer is accepted and merges to `next` succeeds with `next`. */
  lemma LoadOfMergedResponse(direction: Direction, state: State, props: Props, api: Request -> ApiOutcome, next: NewState)
    requires ValidConfig(Defaulted(props))
    requires forall i :: 0 <= i < |state.results| ==> !state.results[i].Null?
    requires api(RequestFor(direction, state, Defaulted(props))).Resolved?
    requires var response := api(RequestFor(direction, state, Defaulted(props))).value;
      && Validate(response, CheckApiReturnChecks) == Success(response)
      && WellFormed(response)
      && Apply(Corrected, direction, state, Defaulted(props), response) == next
    ensures LoadPacket(Corrected, direction, state, props, api) == Success(next)
  {
    LoadOfAcceptedResponse(direction, state, props, api, api(RequestFor(direction, state, Defaulted(props))).value);
  }

  /**
   * A forward load on a gapless window [s, e) with a serving api appends the
   * next packet of the dataset, ending at hi, drops the oldest tuples beyond
   * loadSize, and leaves the gapless window [lo, hi); endOfResults says
   * whether the window reaches the dataset's end.
   */
  lemma ForwardLoadGapless(ds: seq<Json>, state: State, props: Props, api: Request -> ApiOutcome, lo: int, hi: int)
    requires ValidDataset(ds) && ValidConfig(Defaulted(props)) && Gapless(state, ds) && ServesStretches(api, ds)
    requires hi == Min(state.boundaries.end + AdaptivePacketSize(Defaulted(props), |state.results|), |ds|)
    requires lo == hi - KeptCount(Defaulted(props), hi - state.boundaries.start)
    ensures 0 <= state.boundaries.start <= lo <= hi <= |ds|
    ensures api(RequestFor(Forward, state, Defaulted(props))).Resolved?
    ensures LoadPacket(Corrected, Forward, state, props, api)
         == Success(NewState(true, false, ds[lo..hi], Flags(lo == 0, hi >= |ds|), Boundaries(lo, hi),
                             api(RequestFor(Forward, state, Defaulted(props))).value))
  {
    ForwardApply(ds, state, Defaulted(props), api, lo, hi);
    GaplessHoldsObjects(ds, state);
    LoadOfMergedResponse(Forward, state, props, api,
      NewState(true, false, ds[lo..hi], Flags(lo == 0, hi >= |ds|), Boundaries(lo, hi),
               api(RequestFor(Forward, state, Defaulted(props))).value));
  }

  /**
   * A backward load on a gapless window [s, e) with a serving api prepends
   * the previous packet of the dataset, from lo (0 at the earliest), drops
   * the newest tuples beyond loadSize, and leaves the gapless window
   * [lo, hi); endOfResults is cleared when the trim dropped tuples and is
   * kept otherwise.
   */
  lemma BackwardLoadGapless(ds: seq<Json>, state: State, props: Props, api: Request -> ApiOutcome, lo: int, hi: int)
    requires ValidDataset(ds) && ValidConfig(Defaulted(props)) && Gapless(state, ds) && ServesStretches(api, ds)
    requires lo == Max0(state.boundaries.start - AdaptivePacketSize(Defaulted(props), |state.results|))
    requires hi == lo + KeptCount(Defaulted(props), state.boundaries.end - lo)
    ensures 0 <= lo <= state.boundaries.start && lo <= hi <= state.boundaries.end
    ensures api(RequestFor(Backward, state, Defaulted(props))).Resolved?
    ensures LoadPacket(Corrected, Backward, state, props, api)
         == Success(NewState(true, false, ds[lo..hi], Flags(lo == 0, BackwardEndOfResults(state, Defaulted(props), lo, hi)),
                             Boundaries(lo, hi), api(RequestFor(Backward, state, Defaulted(props))).value))
  {
    BackwardApply(ds, state, Defaulted(props), api, lo, hi);
    GaplessHoldsObjects(ds, state);
    LoadOfMergedResponse(Backward, state, props, api,
      NewState(true, false, ds[lo..hi], Flags(lo == 0, BackwardEndOfResults(state, Defaulted(props), lo, hi)),
               Boundaries(lo, hi), api(RequestFor(Backward, state, Defaulted(props))).value));
  }

  /** A state holding the stretch [lo, hi) of a valid dataset is gapless and holds no key twice. */
  lemma StretchIsGapless(ds: seq<Json>, state: State, next: NewState, lo: int, hi: int)
    requires ValidDataset(ds) && 0 <= lo <= hi <= |ds|
    requires next.results == ds[lo..hi] && next.boundaries == Boundaries(lo, hi)
    ensures Gapless(Continue(state, next), ds)
    ensures UniqueKeys(next.results)
    ensures next.boundaries.end - next.boundaries.start == |next.results|
  {
    ValidDatasetFacts(ds);
    UniqueSlice(ds, lo, hi);
  }

  /** Loads in either direction keep the window gapless, so a scroll session never skips a tuple. */
  lemma LoadKeepsGapless(direction: Direction, ds: seq<Json>, state: State, props: Props, api: Request -> ApiOutcome)
    requires ValidDataset(ds) && ValidConfig(Defaulted(props)) && Gapless(state, ds) && ServesStretches(api, ds)
    ensures var r := LoadPacket(Corrected, direction, state, props, api);
      && r.Success? && Gapless(Continue(state, r.value), ds)
      && UniqueKeys(r.value.results)
      && r.value.boundaries.end - r.value.boundaries.start == |r.value.results|
  {
    var cfg := Defaulted(props);
    var r := LoadPacket(Corrected, direction, state, props, api);
    var lo, hi;
    if direction == Forward {
      hi := Min(state.boundaries.end + AdaptivePacketSize(cfg, |state.results|), |ds|);
      lo := hi - KeptCount(cfg, hi - state.boundaries.start);
      ForwardLoadGapless(ds, state, props, api, lo, hi);
    } else {
      lo := Max0(state.boundaries.start - AdaptivePacketSize(cfg, |state.results|));
      hi := lo + KeptCount(cfg, state.boundaries.end - lo);
      BackwardLoadGapless(ds, state, props, api, lo, hi);
    }
    StretchIsGapless(ds, state, r.value, lo, hi);
  }

  // ---------------------------------------------------------------- the test sessions

  /** Props with every size left to its default. */
  function DefaultProps(bypassLoadSize: bool): Props
  {
    Props(None, None, None, None, bypassLoadSize)
  }

  /** A component state holding the stretch [s, e) of the 1000-tuple dataset. */
  function WindowOf(s: nat, e: nat, flags: Flags): State
    requires s <= e <= DatasetSize
  {
    State(map[], Boundaries(s, e), Dataset(DatasetSize)[s..e], flags)
  }

  /** One forward load, as written except that null tuples are rejected, from the window [s, e) leaves the window [lo, hi) with the given flags. */
  predicate ForwardStepsTo(api: Request -> ApiOutcome, props: Props, s: nat, e: nat, flags: Flags, lo: nat, hi: nat, next: Flags)
    requires s <= e <= DatasetSize && lo <= hi <= DatasetSize
  {
    var r := LoadPacket(AsWritten, Forward, WindowOf(s, e, flags), props, api);
    r.Success? && Continue(WindowOf(s, e, flags), r.value) == WindowOf(lo, hi, next)
  }

  /** One backward load, as written except that null tuples are rejected, from the window [s, e) leaves the window [lo, hi) with the given flags. */
  predicate BackwardStepsTo(api: Request -> ApiOutcome, props: Props, s: nat, e: nat, flags: Flags, lo: nat, hi: nat, next: Flags)
    requires s <= e <= DatasetSize && lo <= hi <= DatasetSize
  {
    var r := LoadPacket(AsWritten, Backward, WindowOf(s, e, flags), props, api);
    r.Success? && Continue(WindowOf(s, e, flags), r.value) == WindowOf(lo, hi, next)
  }

  /**
   * The windows on which the source's boundaries are right: tuples were held
   * and more than one packet is kept, or nothing was held and the first
   * packet was not trimmed.
   */
  predicate BoundariesRightOn(props: Props, held: nat, kept: nat)
  {
    var a := AdaptivePacketSize(Defaulted(props), held);
    || (held > 0 && kept > a)
    || (held == 0 && kept <= a && (props.bypassLoadSize || kept < Defaulted(props).loadSize))
  }

  /** On those windows the source's load is the corrected one. */
  lemma StepAgrees(direction: Direction, state: State, props: Props, api: Request -> ApiOutcome, kept: nat)
    requires LoadPacket(Corrected, direction, state, props, api).Success?
    requires |LoadPacket(Corrected, direction, state, props, api).value.results| == kept
    requires BoundariesRightOn(props, |state.results|, kept)
    ensures LoadPacket(AsWritten, direction, state, props, api) == LoadPacket(Corrected, direction, state, props, api)
  {
    RulesAgree(direction, state, props, api);
  }

  /** Where its boundaries are right, the source's forward load on a gapless window is the corrected one. */
  lemma ForwardLoadAsWritten(ds: seq<Json>, state: State, props: Props, api: Request -> ApiOutcome, lo: int, hi: int)
    requires ValidDataset(ds) && ValidConfig(Defaulted(props)) && Gapless(state, ds) && ServesStretches(api, ds)
    requires hi == Min(state.boundaries.end + AdaptivePacketSize(Defaulted(props), |state.results|), |ds|)
    requires lo == hi - KeptCount(Defaulted(props), hi - state.boundaries.start)
    requires BoundariesRightOn(props, |state.results|, hi - lo)
    ensures 0 <= state.boundaries.start <= lo <= hi <= |ds|
    ensures api(RequestFor(Forward, state, Defaulted(props))).Resolved?
    ensures LoadPacket(AsWritten, Forward, state, props, api)
         == Success(NewState(true, false, ds[lo..hi], Flags(lo == 0, hi >= |ds|), Boundaries(lo, hi),
                             api(RequestFor(Forward, state, Defaulted(props))).value))
  {
    ForwardLoadGapless(ds, state, props, api, lo, hi);
    StepAgrees(Forward, state, props, api, hi - lo);
  }

  /** Where its boundaries are right, the source's backward load on a gapless window is the corrected one. */
  lemma BackwardLoadAsWritten(ds: seq<Json>, state: State, props: Props, api: Request -> ApiOutcome, lo: int, hi: int)
    requires ValidDataset(ds) && ValidConfig(Defaulted(props)) && Gapless(state, ds) && ServesStretches(api, ds)
    requires lo == Max0(state.boundaries.start - AdaptivePacketSize(Defaulted(props), |state.results|))
    requires hi == lo + KeptCount(Defaulted(props), state.boundaries.end - lo)
    requires BoundariesRightOn(props, |state.results|, hi - lo)
    ensures 0 <= lo <= state.boundaries.start && lo <= hi <= state.boundaries.end
    ensures api(RequestFor(Backward, state, Defaulted(props))).Resolved?
    ensures LoadPacket(AsWritten, Backward, state, props, api)
         == Success(NewState(true, false, ds[lo..hi], Flags(lo == 0, BackwardEndOfResults(state, Defaulted(props), lo, hi)),
                             Boundaries(lo, hi), api(RequestFor(Backward, state, Defaulted(props))).value))
  {
    BackwardLoadGapless(ds, state, props, api, lo, hi);
    StepAgrees(Backward, state, props, api, hi - lo);
  }

  /** A forward load from a window of the 1000-tuple dataset, as a step between states. */
  lemma ForwardStep(api: Request -> ApiOutcome, props: Props, s: nat, e: nat, flags: Flags, lo: int, hi: int)
    requires ServesStretches(api, Dataset(DatasetSize)) && ValidConfig(Defaulted(props)) && s <= e <= DatasetSize
    requires hi == Min(e + AdaptivePacketSize(Defaulted(props), e - s), DatasetSize)
    requires lo == hi - KeptCount(Defaulted(props), hi - s)
    requires BoundariesRightOn(props, e - s, hi - lo)
    ensures 0 <= lo <= hi <= DatasetSize
      && ForwardStepsTo(api, props, s, e, flags, lo, hi, Flags(lo == 0, hi >= DatasetSize))
  {
    DatasetIsValid(DatasetSize);
    ForwardLoadAsWritten(Dataset(DatasetSize), WindowOf(s, e, flags), props, api, lo, hi);
  }

  /** A backward load from a window of the 1000-tuple dataset, as a step between states. */
  lemma BackwardStep(api: Request -> ApiOutcome, props: Props, s: nat, e: nat, flags: Flags, lo: int, hi: int)
    requires ServesStretches(api, Dataset(DatasetSize)) && ValidConfig(Defaulted(props)) && s <= e <= DatasetSize
    requires lo == Max0(s - AdaptivePacketSize(Defaulted(props), e - s))
    requires hi == lo + KeptCount(Defaulted(props), e - lo)
    requires BoundariesRightOn(props, e - s, hi - lo)
    ensures 0 <= lo <= hi <= DatasetSize
      && BackwardStepsTo(api, props, s, e, flags, lo, hi,
                         Flags(lo == 0, BackwardEndOfResults(WindowOf(s, e, flags), Defaulted(props), lo, hi)))
  {
    DatasetIsValid(DatasetSize);
    BackwardLoadAsWritten(Dataset(DatasetSize), WindowOf(s, e, flags), props, api, lo, hi);
  }

  /** The forward test session, first step: an empty window loads 60 tuples in a rush. */
  lemma ForwardSessionRush(api: Request -> ApiOutcome)
    requires ServesStretches(api, Dataset(DatasetSize))
    ensures ForwardStepsTo(api, DefaultProps(false), 0, 0, Flags(true, false), 0, 60, Flags(true, false))
  {
    ForwardStep(api, DefaultProps(false), 0, 0, Flags(true, false), 0, 60);
  }

  /** Then packets of 30, until the window holds loadSize = 120 tuples. */
  lemma ForwardSessionFill(api: Request -> ApiOutcome)
    requires ServesStretches(api, Dataset(DatasetSize))
    ensures ForwardStepsTo(api, DefaultProps(false), 0, 60, Flags(true, false), 0, 90, Flags(true, false))
    ensures ForwardStepsTo(api, DefaultProps(false), 0, 90, Flags(true, false), 0, 120, Flags(true, false))
  {
    ForwardStep(api, DefaultProps(false), 0, 60, Flags(true, false), 0, 90);
    ForwardStep(api, DefaultProps(false), 0, 90, Flags(true, false), 0, 120);
  }

  /** A full window slides: the 30 oldest tuples are dropped. */
  lemma ForwardSessionSlide(api: Request -> ApiOutcome)
    requires ServesStretches(api, Dataset(DatasetSize))
    ensures ForwardStepsTo(api, DefaultProps(false), 0, 120, Flags(true, false), 30, 150, Flags(false, false))
  {
    ForwardStep(api, DefaultProps(false), 0, 120, Flags(true, false), 30, 150);
  }

  /** With bypassLoadSize the window grows past loadSize. */
  lemma ForwardSessionBypass(api: Request -> ApiOutcome)
    requires ServesStretches(api, Dataset(DatasetSize))
    ensures ForwardStepsTo(api, DefaultProps(true), 30, 150, Flags(false, false), 30, 180, Flags(false, false))
  {
    ForwardStep(api, DefaultProps(true), 30, 150, Flags(false, false), 30, 180);
  }

  /** An empty window in the middle of the dataset loads 60 tuples after it. */
  lemma ForwardSessionAnywhere(api: Request -> ApiOutcome)
    requires ServesStretches(api, Dataset(DatasetSize))
    ensures ForwardStepsTo(api, DefaultProps(false), 500, 500, Flags(true, false), 500, 560, Flags(false, false))
  {
    ForwardStep(api, DefaultProps(false), 500, 500, Flags(true, false), 500, 560);
  }

  /** The backward test session, first step: an empty window at the end loads the 60 last tuples. */
  lemma BackwardSessionRush(api: Request -> ApiOutcome)
    requires ServesStretches(api, Dataset(DatasetSize))
    ensures BackwardStepsTo(api, DefaultProps(false), 1000, 1000, Flags(true, false), 940, 1000, Flags(false, false))
  {
    BackwardStep(api, DefaultProps(false), 1000, 1000, Flags(true, false), 940, 1000);
  }

  /** Then packets of 30 before the window, until it holds 120 tuples. */
  lemma BackwardSessionFill(api: Request -> ApiOutcome)
    requires ServesStretches(api, Dataset(DatasetSize))
    ensures BackwardStepsTo(api, DefaultProps(false), 940, 1000, Flags(false, false), 910, 1000, Flags(false, false))
    ensures BackwardStepsTo(api, DefaultProps(false), 910, 1000, Flags(false, false), 880, 1000, Flags(false, false))
  {
    BackwardStep(api, DefaultProps(false), 940, 1000, Flags(false, false), 910, 1000);
    BackwardStep(api, DefaultProps(false), 910, 1000, Flags(false, false), 880, 1000);
  }

  /** A full window slides back: the 30 newest tuples are dropped. */
  lemma BackwardSessionSlide(api: Request -> ApiOutcome)
    requires ServesStretches(api, Dataset(DatasetSize))
    ensures BackwardStepsTo(api, DefaultProps(false), 880, 1000, Flags(false, false), 850, 970, Flags(false, false))
  {
    BackwardStep(api, DefaultProps(false), 880, 1000, Flags(false, false), 850, 970);
  }

  /** With bypassLoadSize the window grows past loadSize going backward too. */
  lemma BackwardSessionBypass(api: Request -> ApiOutcome)
    requires ServesStretches(api, Dataset(DatasetSize))
    ensures BackwardStepsTo(api, DefaultProps(true), 850, 970, Flags(false, false), 820, 970, Flags(false, false))
  {
    BackwardStep(api, DefaultProps(true), 850, 970, Flags(false, false), 820, 970);
  }

  /** An empty window in the middle of the dataset loads 60 tuples before it. */
  lemma BackwardSessionAnywhere(api: Request -> ApiOutcome)
    requires ServesStretches(api, Dataset(DatasetSize))
    ensures BackwardStepsTo(api, DefaultProps(false), 500, 500, Flags(true, false), 440, 500, Flags(false, false))
  {
    BackwardStep(api, DefaultProps(false), 500, 500, Flags(true, false), 440, 500);
  }

  // ---------------------------------------------------------------- boundaries as written

  /**
   * A first load in a rush larger than loadSize (loadSize 90, inRushLoadSize
   * 120): the source keeps the 90 tuples [30, 120) but reports the
   * boundaries [0, 120), because the trimmed 30 are not added to the api's
   * start when no more than one packet is kept. The corrected load reports
   * [30, 120).
   */
  lemma RushBoundariesAsWrittenIgnoreTrim(api: Request -> ApiOutcome)
    requires ServesStretches(api, Dataset(DatasetSize))
    ensures var props, window := Props(None, Some(90), None, Some(120), false), WindowOf(0, 0, Flags(true, false));
      var w, c := LoadPacket(AsWritten, Forward, window, props, api), LoadPacket(Corrected, Forward, window, props, api);
      && w.Success? && w.value.results == Dataset(DatasetSize)[30..120] && w.value.boundaries == Boundaries(0, 120)
      && !Gapless(Continue(window, w.value), Dataset(DatasetSize))
      && c.Success? && c.value.results == w.value.results && c.value.boundaries == Boundaries(30, 120)
  {
    var props, window := Props(None, Some(90), None, Some(120), false), WindowOf(0, 0, Flags(true, false));
    var ds := Dataset(DatasetSize);
    DatasetIsValid(DatasetSize);
    ForwardLoadGapless(ds, window, props, api, 30, 120);
    ServedForward(ds, window, Defaulted(props), api, 120);
    RulesDifferOnlyInBoundaries(Forward, window, props, api);
  }

  /**
   * A backward load on a short window (the 10 tuples [10, 20)): the source
   * keeps the 20 tuples [0, 20) but reports the api's range [0, 10) as the
   * boundaries, because the held end is dropped when no more than one packet
   * is kept. The corrected load reports [0, 20).
   */
  lemma ShortWindowBoundariesAsWrittenLoseHeldEnd(api: Request -> ApiOutcome)
    requires ServesStretches(api, Dataset(DatasetSize))
    ensures var props, window := DefaultProps(false), WindowOf(10, 20, Flags(false, false));
      var w, c := LoadPacket(AsWritten, Backward, window, props, api), LoadPacket(Corrected, Backward, window, props, api);
      && w.Success? && w.value.results == Dataset(DatasetSize)[0..20] && w.value.boundaries == Boundaries(0, 10)
      && !Gapless(Continue(window, w.value), Dataset(DatasetSize))
      && c.Success? && c.value.results == w.value.results && c.value.boundaries == Boundaries(0, 20)
  {
    var props, window := DefaultProps(false), WindowOf(10, 20, Flags(false, false));
    var ds := Dataset(DatasetSize);
    DatasetIsValid(DatasetSize);
    BackwardLoadGapless(ds, window, props, api, 0, 20);
    ServedBackward(ds, window, Defaulted(props), api, 0);
    RulesDifferOnlyInBoundaries(Backward, window, props, api);
  }

  // ---------------------------------------------------------------- failing apis

  /** An api that rejects makes a load with valid props fail with its reason. */
  lemma RejectingApiFailsLoad(rule: BoundaryRule, direction: Direction, state: State, props: Props, ds: seq<Json>)
    requires ValidConfig(Defaulted(props))
    ensures LoadPacket(rule, direction, state, props, Simulator(1, ds)) == Failure(ApiRejected(Str("Error")))
  {
  }

  /** An api that resolves to `{foo: 'bar'}` fails the response check for its missing boundaries. */
  lemma MalformedApiFailsLoad(rule: BoundaryRule, direction: Direction, state: State, props: Props, ds: seq<Json>)
    requires ValidConfig(Defaulted(props))
    ensures LoadPacket(rule, direction, state, props, Simulator(2, ds)) == Failure(BadResponse(NoBoundaries))
  {
    var value := Obj(map["foo" := Str("bar")]);
    assert "boundaries" !in value.fields;
    assert Validate(value, CheckApiReturnChecks) == Failure(NoBoundaries);
  }
}

=== FILE: tuples_validator.dfy ===
/**
 * The per-tuple checks on `queryResults`: every tuple must be an Object
 * carrying a key. tuplesValidator rejects a null tuple; the loop inlined in
 * checkApiReturn skips null tuples (`nullAllowed`).
 */
module TuplesValidator {

  import opened Wrappers
  import opened JsonValues
  import opened Window
  import opened ApiErrors
  import opened Settle

  /** The verdict on one tuple: None when it passes. */
  function TupleError(tuple: Json, origin: Option<string>, nullAllowed: bool): Option<ApiError>
  {
    if nullAllowed && tuple.Null? then None
    else if !tuple.Obj? then Some(NotValidTuple(tuple, origin))
    else if KeyOf(tuple).Null? then Some(NoTupleKey)
    else None
  }

  /** A tuple that passes: an Object with a key (or null, where nulls are allowed). */
  predicate GoodTuple(tuple: Json, nullAllowed: bool)
  {
    (nullAllowed && tuple.Null?) || (tuple.Obj? && !KeyOf(tuple).Null?)
  }

  /** The error of the first tuple that fails, if any. */
  function FirstTupleError(tuples: seq<Json>, origin: Option<string>, nullAllowed: bool): (r: Option<ApiError>)
    ensures r.None? <==> forall i :: 0 <= i < |tuples| ==> GoodTuple(tuples[i], nullAllowed)
    ensures r.Some? ==> exists i :: 0 <= i < |tuples| && r == TupleError(tuples[i], origin, nullAllowed)
                          && !GoodTuple(tuples[i], nullAllowed)
                          && forall k :: 0 <= k < i ==> GoodTuple(tuples[k], nullAllowed)
  {
    if tuples == [] then None
    else if TupleError(tuples[0], origin, nullAllowed).Some? then TupleError(tuples[0], origin, nullAllowed)
    else
      var r := FirstTupleError(tuples[1..], origin, nullAllowed);
      assert forall i :: 0 <= i < |tuples[1..]| ==> tuples[1..][i] == tuples[i + 1];
      if r.Some? then
        var i :| 0 <= i < |tuples[1..]| && r == TupleError(tuples[1..][i], origin, nullAllowed)
                 && !GoodTuple(tuples[1..][i], nullAllowed)
                 && forall k :: 0 <= k < i ==> GoodTuple(tuples[1..][k], nullAllowed);
        assert forall k :: 0 <= k < i + 1 ==> GoodTuple(tuples[k], nullAllowed) by {
          forall k | 0 <= k < i + 1 ensures GoodTuple(tuples[k], nullAllowed) {
            if k > 0 { assert tuples[k] == tuples[1..][k - 1]; }
          }
        }
        r
      else
        r
  }

  /** The first failing tuple decides the error, whatever follows it. */
  lemma {:induction false} FirstTupleErrorAt(tuples: seq<Json>, origin: Option<string>, nullAllowed: bool, i: nat)
    requires i < |tuples|
    requires forall k :: 0 <= k < i ==> GoodTuple(tuples[k], nullAllowed)
    requires !GoodTuple(tuples[i], nullAllowed)
    ensures FirstTupleError(tuples, origin, nullAllowed) == TupleError(tuples[i], origin, nullAllowed)
  {
    if i > 0 {
      assert GoodTuple(tuples[0], nullAllowed);
      FirstTupleErrorAt(tuples[1..], origin, nullAllowed, i - 1);
    }
  }

  /**
   * The scan over the tuples: reject at the first bad tuple and stop; the
   * final resolve is ignored once rejected.
   */
  method ScanTuples(tuples: seq<Json>, origin: Option<string>, nullAllowed: bool) returns (outcome: Result<(), ApiError>)
    ensures outcome.Success? <==> forall i :: 0 <= i < |tuples| ==> GoodTuple(tuples[i], nullAllowed)
    ensures outcome.Failure? ==> Some(outcome.error) == FirstTupleError(tuples, origin, nullAllowed)
  {
    var promise := new Deferred<(), ApiError>();
    var i := 0;
    while i < |tuples|
      invariant 0 <= i <= |tuples|
      invariant forall k :: 0 <= k < i ==> GoodTuple(tuples[k], nullAllowed)
      invariant promise.outcome.None?
    {
      var tuple := tuples[i];
      if !(nullAllowed && tuple.Null?) && !tuple.Obj? {
        promise.Reject(NotValidTuple(tuple, origin));
        FirstTupleErrorAt(tuples, origin, nullAllowed, i);
        break;
      } else if !(nullAllowed && tuple.Null?) && KeyOf(tuple).Null? {
        promise.Reject(NoTupleKey);
        FirstTupleErrorAt(tuples, origin, nullAllowed, i);
        break;
      }
      i := i + 1;
    }
    promise.Resolve(());
    outcome := promise.outcome.value;
  }

  /** tuplesValidator (nulls rejected). */
  method TuplesValidator(tuples: seq<Json>, origin: string) returns (outcome: Result<(), ApiError>)
    ensures outcome.Success? <==> forall i :: 0 <= i < |tuples| ==> tuples[i].Obj? && !KeyOf(tuples[i]).Null?
    ensures outcome.Failure? ==> Some(outcome.error) == FirstTupleError(tuples, Some(origin), false)
  {
    outcome := ScanTuples(tuples, Some(origin), false);
  }
}

=== FILE: window.dfy ===
/**
 * The vocabulary shared by the handlers: the held tuples, their boundaries in
 * the virtual dataset, the two exhaustion flags, and the key lookups and array
 * slices the handlers build on.
 */
module Window {

  import opened JsonValues

  datatype Direction = Forward | Backward

  /** `[start, end)` offsets of the held tuples in the virtual dataset. */
  datatype Boundaries = Boundaries(start: int, end: int)

  datatype Flags = Flags(beginningOfResults: bool, endOfResults: bool)

  /** `tuple.key`. */
  function KeyOf(tuple: Json): Json
  {
    Get(tuple, "key")
  }

  /** The keys of `tuples`, position by position. */
  function Keys(tuples: seq<Json>): (keys: seq<Json>)
    ensures |keys| == |tuples|
    ensures forall i :: 0 <= i < |tuples| ==> keys[i] == KeyOf(tuples[i])
  {
    seq(|tuples|, i requires 0 <= i < |tuples| => KeyOf(tuples[i]))
  }

  /** No two tuples share a key. */
  predicate UniqueKeys(tuples: seq<Json>)
  {
    forall i, j :: 0 <= i < j < |tuples| ==> KeyOf(tuples[i]) != KeyOf(tuples[j])
  }

  /** No tuple of `a` has the key of a tuple of `b`. */
  predicate KeysDisjoint(a: seq<Json>, b: seq<Json>)
  {
    forall i, j :: 0 <= i < |a| && 0 <= j < |b| ==> KeyOf(a[i]) != KeyOf(b[j])
  }

  /**
   * `incoming.filter(x => !held.find(y => y.key === x.key))`: the incoming
   * tuples whose key is not held yet, in their original order.
   */
  function Unheld(incoming: seq<Json>, held: seq<Json>): (r: seq<Json>)
    ensures |r| <= |incoming|
  {
    if incoming == [] then []
    else if KeyOf(incoming[0]) in Keys(held) then Unheld(incoming[1..], held)
    else [incoming[0]] + Unheld(incoming[1..], held)
  }

  /** The filter keeps exactly the incoming tuples whose key is not held. */
  lemma {:induction false} UnheldMembers(incoming: seq<Json>, held: seq<Json>)
    ensures forall x :: x in Unheld(incoming, held) ==> x in incoming && KeyOf(x) !in Keys(held)
    ensures forall x :: x in incoming && KeyOf(x) !in Keys(held) ==> x in Unheld(incoming, held)
  {
    if incoming != [] {
      UnheldMembers(incoming[1..], held);
      forall x | x in incoming ensures x == incoming[0] || x in incoming[1..] {
        var i :| 0 <= i < |incoming| && incoming[i] == x;
        if i > 0 { assert incoming[1..][i - 1] == x; }
      }
    }
  }

  /** Filtering distributes over concatenation: the order of the incoming tuples is kept. */
  lemma {:induction false} UnheldConcat(a: seq<Json>, b: seq<Json>, held: seq<Json>)
    ensures Unheld(a + b, held) == Unheld(a, held) + Unheld(b, held)
  {
    if a == [] {
      assert a + b == b;
    } else {
      assert (a + b)[0] == a[0];
      assert (a + b)[1..] == a[1..] + b;
      UnheldConcat(a[1..], b, held);
    }
  }

  /** Incoming tuples that share no key with the held ones all survive. */
  lemma {:induction false} UnheldAllNew(incoming: seq<Json>, held: seq<Json>)
    requires KeysDisjoint(incoming, held)
    ensures Unheld(incoming, held) == incoming
  {
    if incoming != [] {
      assert KeyOf(incoming[0]) !in Keys(held) by {
        forall j | 0 <= j < |held| ensures Keys(held)[j] != KeyOf(incoming[0]) {
          assert KeyOf(incoming[0]) != KeyOf(held[j]);
        }
      }
      assert KeysDisjoint(incoming[1..], held) by {
        forall i, j | 0 <= i < |incoming[1..]| && 0 <= j < |held|
          ensures KeyOf(incoming[1..][i]) != KeyOf(held[j])
        {
          assert incoming[1..][i] == incoming[i + 1];
        }
      }
      UnheldAllNew(incoming[1..], held);
    }
  }

  /** Re-fetching tuples that are all held merges nothing. */
  lemma {:induction false} UnheldAllHeld(incoming: seq<Json>, held: seq<Json>)
    requires forall i :: 0 <= i < |incoming| ==> KeyOf(incoming[i]) in Keys(held)
    ensures Unheld(incoming, held) == []
  {
    if incoming != [] {
      assert forall i :: 0 <= i < |incoming[1..]| ==> incoming[1..][i] == incoming[i + 1];
      UnheldAllHeld(incoming[1..], held);
    }
  }

  /** The survivors of the filter keep the incoming tuples' own key uniqueness. */
  lemma {:induction false} UnheldUnique(incoming: seq<Json>, held: seq<Json>)
    requires UniqueKeys(incoming)
    ensures UniqueKeys(Unheld(incoming, held))
  {
    if incoming != [] {
      var rest := Unheld(incoming[1..], held);
      assert UniqueKeys(incoming[1..]) by {
        forall i, j | 0 <= i < j < |incoming[1..]|
          ensures KeyOf(incoming[1..][i]) != KeyOf(incoming[1..][j])
        {
          assert incoming[1..][i] == incoming[i + 1] && incoming[1..][j] == incoming[j + 1];
        }
      }
      UnheldUnique(incoming[1..], held);
      UnheldMembers(incoming[1..], held);
      if KeyOf(incoming[0]) !in Keys(held) {
        var r := [incoming[0]] + rest;
        forall i, j | 0 <= i < j < |r| ensures KeyOf(r[i]) != KeyOf(r[j]) {
          if i == 0 {
            assert r[j] == rest[j - 1];
            assert rest[j - 1] in incoming[1..];
            var k :| 0 <= k < |incoming[1..]| && incoming[1..][k] == rest[j - 1];
            assert incoming[1..][k] == incoming[k + 1];
          } else {
            assert r[i] == rest[i - 1] && r[j] == rest[j - 1];
          }
        }
      }
    }
  }

  /** Two key-disjoint sequences with unique keys concatenate to one with unique keys. */
  lemma UniqueConcat(a: seq<Json>, b: seq<Json>)
    requires UniqueKeys(a) && UniqueKeys(b)
    requires KeysDisjoint(a, b) || KeysDisjoint(b, a)
    ensures UniqueKeys(a + b)
  {
    var c := a + b;
    forall i, j | 0 <= i < j < |c| ensures KeyOf(c[i]) != KeyOf(c[j]) {
      if j < |a| {
        assert c[i] == a[i] && c[j] == a[j];
      } else if i >= |a| {
        assert c[i] == b[i - |a|] && c[j] == b[j - |a|];
      } else {
        assert c[i] == a[i] && c[j] == b[j - |a|];
      }
    }
  }

  /** Any slice of a sequence with unique keys has unique keys. */
  lemma UniqueSlice(s: seq<Json>, lo: nat, hi: nat)
    requires lo <= hi <= |s|
    requires UniqueKeys(s)
    ensures UniqueKeys(s[lo..hi])
  {
    forall i, j | 0 <= i < j < hi - lo ensures KeyOf(s[lo..hi][i]) != KeyOf(s[lo..hi][j]) {
      assert s[lo..hi][i] == s[lo + i] && s[lo..hi][j] == s[lo + j];
    }
  }

  /** The survivors of the filter share no key with the held tuples. */
  lemma UnheldDisjoint(incoming: seq<Json>, held: seq<Json>)
    ensures KeysDisjoint(Unheld(incoming, held), held)
  {
    var r := Unheld(incoming, held);
    UnheldMembers(incoming, held);
    forall i, j | 0 <= i < |r| && 0 <= j < |held| ensures KeyOf(r[i]) != KeyOf(held[j]) {
      assert r[i] in r;
      assert Keys(held)[j] == KeyOf(held[j]);
    }
  }

  /**
   * Whether `held.find(y => y.key === x.key)` reads `key` on a null tuple: it
   * reads y.key and then x.key for each held y until the keys match.
   */
  predicate FindThrows(x: Json, held: seq<Json>)
  {
    if held == [] then false
    else if held[0].Null? || x.Null? then true
    else if KeyOf(held[0]) == KeyOf(x) then false
    else FindThrows(x, held[1..])
  }

  /**
   * Whether `incoming.filter(x => !held.find(y => y.key === x.key))`, the
   * dedupe filter of insertHandler and loadPacketHandler, throws for one of
   * the incoming tuples.
   */
  predicate FilterThrows(incoming: seq<Json>, held: seq<Json>)
  {
    exists i :: 0 <= i < |incoming| && FindThrows(incoming[i], held)
  }

  /** The filter never throws on an empty window, and always does for a null incoming tuple on a non-empty one. */
  lemma FilterThrowsCases(incoming: seq<Json>, held: seq<Json>)
    ensures held == [] ==> !FilterThrows(incoming, held)
    ensures held != [] && Null in incoming ==> FilterThrows(incoming, held)
    ensures held != [] && held[0].Null? && incoming != [] ==> FilterThrows(incoming, held)
  {
    if held != [] && Null in incoming {
      var i :| 0 <= i < |incoming| && incoming[i] == Null;
      assert FindThrows(incoming[i], held);
    }
    if held != [] && incoming != [] {
      assert FindThrows(incoming[0], held) <== held[0].Null?;
    }
  }

  /** Among tuples that are all objects, nothing throws. */
  lemma {:induction false} ObjectsNeverThrow(x: Json, held: seq<Json>)
    requires !x.Null? && forall i :: 0 <= i < |held| ==> !held[i].Null?
    ensures !FindThrows(x, held)
  {
    if held != [] {
      ObjectsNeverThrow(x, held[1..]);
    }
  }

  /** Among incoming and held tuples none of which is null, the filter never throws. */
  lemma ObjectsFilterNeverThrows(incoming: seq<Json>, held: seq<Json>)
    requires forall i :: 0 <= i < |incoming| ==> !incoming[i].Null?
    requires forall i :: 0 <= i < |held| ==> !held[i].Null?
    ensures !FilterThrows(incoming, held)
  {
    forall i | 0 <= i < |incoming| ensures !FindThrows(incoming[i], held) {
      ObjectsNeverThrow(incoming[i], held);
    }
  }

  /** Array.prototype.slice's reading of an index: negative counts from the end; clamped to [0, len]. */
  function SliceIndex(i: int, len: nat): (r: nat)
    ensures r <= len
    ensures 0 <= i <= len ==> r == i
    ensures i < 0 && len + i >= 0 ==> r == len + i
    ensures i > len ==> r == len
    ensures len + i < 0 ==> r == 0
  {
    if i < 0 then (if len + i < 0 then 0 else len + i)
    else if i < len then i else len
  }

  /** `s.slice(begin, end)`. */
  function JsSlice<T>(s: seq<T>, begin: int, end: int): (r: seq<T>)
    ensures |r| <= |s|
  {
    var lo, hi := SliceIndex(begin, |s|), SliceIndex(end, |s|);
    if lo < hi then s[lo..hi] else []
  }

  /** `s.slice(-n)` for n >= 1 keeps the last n elements, or all of them when there are fewer. */
  lemma SliceLast<T>(s: seq<T>, n: int)
    requires n >= 1
    ensures JsSlice(s, -n, |s|) == if |s| <= n then s else s[|s| - n..]
  {
  }

  /** `s.slice(0, n)` for n >= 0 keeps the first n elements, or all of them when there are fewer. */
  lemma SliceFirst<T>(s: seq<T>, n: int)
    requires n >= 0
    ensures JsSlice(s, 0, n) == if |s| <= n then s else s[..n]
  {
  }
}

=== FILE: wrappers.dfy ===
/** Option and Result, used for absent props and for the rejections of the handlers. */
module Wrappers {

  datatype Option<+T> = None | Some(value: T)

  datatype Result<+R, +E> = Success(value: R) | Failure(error: E)
}
